=== FILE: README.md ===
# CineVault core, modelled in Dafny

CineVault is a small PHP web application for keeping a personal list of movie
links. A user registers and logs in, then adds movies in one of two ways: by
URL, where the server can fetch the page and suggest a title, description and
poster, or by uploading a video file. They can then list, search, edit and
delete their own movies. The public home page shows every user's movies, a
page of twenty at a time.

This project models the logic at the centre of that application as immutable
data and pure functions:

- **`MovieParser`** is the link-metadata extractor. It works on an abstract
  page, the sequence of meta, title and img elements in document order. It
  covers the title, description and poster lookup chains, the site-suffix
  cleanup, the URL-slug fallback title, relative-URL resolution and the
  assembled `parse` result.
- **`MovieModel`** and **`UserModel`** are the two repositories. Each models
  its table as a sequence of rows. Every query is a filter, sort, slice or
  rewrite of that sequence. The `UPDATE` statements are assembled from a
  column whitelist, and their placeholders are counted against the bound
  values.
- **`AuthController`**, **`MovieController`** and **`IndexController`** are
  the request actions. Each one takes the request parameters, the session
  and the table, and returns the response together with the new session or
  table.
- Shared helpers live in separate modules:
  - `Php` models the string built-ins the source relies on, with PHP's
    semantics: truthiness, `trim`, `strlen` as a UTF-8 byte count, `dirname`,
    `basename`, `pathinfo` and `ucfirst`.
  - `Sql` models `LIMIT/OFFSET`, `BINARY` collation and placeholder counting.
  - `Pagination` holds the page clamp and the page count.
  - `Http` holds the session, the parameters and the response shapes.
  - `Common` holds option values, first match, filter and count.

Everything the application gets from outside is a parameter of the function
that needs it:

- the fetched page, or its absence;
- the split base URL;
- `filter_var`'s URL test;
- `password_hash` and `password_verify`;
- SQL `LIKE`;
- `uniqid()`;
- the id `lastInsertId` reports and the insertion time;
- the upload's `move` result;
- whether a database write throws.

## Model

| member | source | states |
|---|---|---|
| Php.TrimBy | support/MovieParser.php:77 | a non-empty trimmed result starts and ends with a kept character |
| Php.TrimByFrames | support/MovieParser.php:77 | trimming removes only stripped characters, and only from the two ends: what is left is a contiguous piece of the input |
| Php.TrimKeepsMiddle | support/MovieParser.php:93 | when a kept run ends just before a stripped tail, trimming leaves that run at its end, behind the character that preceded it |
| Php.TrimIdempotent | app/controller/MovieController.php:110-114 | trimming twice is trimming once |
| Php.ByteLength | app/controller/AuthController.php:88 | `strlen` counts UTF-8 bytes: between one and four per character, one exactly for ASCII |
| Php.UcFirst | support/MovieParser.php:95 | only the first character changes, and only a lower-case ASCII letter, which becomes its upper-case form |
| Php.ReplaceChars | support/MovieParser.php:95 | every hyphen or underscore becomes a space and every other character stays |
| Php.DirNameOfChild | support/MovieParser.php:173 | `dirname` of a path ending in a slash-free name is its directory, or `/` at the root |
| Php.BaseNameOfChild | app/controller/MovieController.php:121-122 | the base name of `dir/name` is `name` |
| Php.AfterLast | app/controller/MovieController.php:120 | the text after the last separator holds no separator, is a tail of the input, and is preceded by the separator when shorter than the input |
| Php.AfterLastShorterIffPresent | app/controller/MovieController.php:120 | the part after the last separator is shorter than the input exactly when the separator occurs |
| Php.BeforeLast | app/controller/MovieController.php:126 | the part before the last separator is a prefix of the input that leaves room for the separator and what follows it, and is the whole input without a separator |
| Php.SplitAtLast | app/controller/MovieController.php:120-125 | an input holding the separator is the part before it, the separator, and the part after it |
| Php.AfterLastSeparator | app/controller/MovieController.php:120 | the text after the last separator is what follows it, whatever precedes it |
| Php.FileNameAndExtension | app/controller/MovieController.php:120-126 | a base name holding a dot is the file name, a dot and the extension; without a dot the file name is the whole base name and the extension is empty |
| Sql.Placeholders | app/model/Movie.php:115-117 | the count of `?` is zero exactly when the statement holds none |
| Sql.ImplodePlaceholders | app/model/Movie.php:115 | joining fragments with a placeholder-free glue keeps the total placeholder count |
| Sql.ImplodeSnoc | app/model/Movie.php:112-115 | joining a list with one more fragment at the end ends with the glue and that fragment |
| Sql.UpdateSqlOfSetList | app/model/Movie.php:112-115 | a SET list closed by `updated_at` reads as the assignments, a comma when there are any, then `updated_at = datetime('now')` |
| Sql.Whitelisted | app/model/Movie.php:105-110 | the kept pairs are exactly the input pairs whose key is allowed, in input order |
| Sql.LastValue | app/model/User.php:77 | a value for a key is found exactly when some pair carries that key |
| Sql.LastValueAt | app/model/Movie.php:105-117 | the value found for a key is the one its last pair carries, as a later write to the same key overwrites an earlier one |
| Sql.UpdateSqlPlaceholders | app/model/Movie.php:115 | the UPDATE text holds the SET list's placeholders plus one for `WHERE id = ?` |
| Sql.SetListPlaceholders | app/model/Movie.php:107-112 | a SET list of whitelisted assignments closed by `updated_at` holds one placeholder per assignment |
| Sql.LimitOffset | app/model/Movie.php:26-37 | the window starts at the offset (zero if negative), holds `limit` rows or as many as remain, and is empty past the end |
| Sql.LimitOffsetWindow | app/model/Movie.php:156-160 | a window that starts inside the rows is the slice from the offset to `offset + limit` or the end |
| Sql.LimitOffsetPage | app/model/Movie.php:26-37 | page `p` of `n` rows is the slice from `(p-1)n` for `n` rows or to the end, and empty past the end |
| Sql.LessTransitive | app/model/Movie.php:145 | the BINARY collation order is transitive |
| Sql.LessTotal | app/model/Movie.php:145 | any two distinct strings are ordered one way |
| Sql.LessIrreflexive | app/model/Movie.php:145 | no string sorts before itself |
| Sql.LessAsymmetric | app/model/Movie.php:145 | two strings never sort before each other both ways |
| Pagination.ClampPage | app/controller/IndexController.php:12 | the page shown is at least 1, and is the requested page whenever that is at least 1 |
| Pagination.TotalPages | app/controller/IndexController.php:15 | the page count is the integer ceiling of total/20: enough pages of twenty, and no empty last page |
| Pagination.PageNonEmptyIffWithinCount | app/controller/MovieController.php:18-33 | a page has rows exactly when its number is at most the page count |
| Pagination.PageContents | app/model/Movie.php:154-161 | page `p` holds rows `20(p-1)` up to `20p` or the end, in order |
| Pagination.PagesUpToArePrefix | app/model/Movie.php:154-161 | pages 1 to `n` in turn show the first `20n` rows, in order |
| Pagination.EveryRowOnSomePage | app/controller/IndexController.php:13-15 | all pages up to the page count show every row exactly once, in order |
| MovieParser.ResolveUrlShape | support/MovieParser.php:152-175 | a resolved reference ends with the reference; an `http://` or `https://` one is returned unchanged; any other gets the base scheme, `http` by default, and a colon in front |
| MovieParser.ResolveUrlIdempotent | support/MovieParser.php:155-174 | on an http or https page every resolved reference is absolute, so resolving it again changes nothing |
| MovieParser.ResolveUrlIgnoresPathForRooted | support/MovieParser.php:162-169 | a reference starting with `/` does not depend on the page's path |
| MovieParser.ResolveProtocolRelative | support/MovieParser.php:162-164 | a `//` reference becomes the page's scheme, `http` when it has none, a colon, and the reference |
| MovieParser.ResolveRootRelative | support/MovieParser.php:167-169 | a `/` reference becomes the page's scheme, `://`, its host (empty when missing) and the reference |
| MovieParser.ResolveAgainstDirectory | support/MovieParser.php:172-174 | a relative reference is appended to scheme, `://`, host and the page's directory prefix |
| MovieParser.ResolveRelativeInDirectory | support/MovieParser.php:172-174 | a relative reference on page `d/name` becomes scheme `://` host `d/` reference, and `/reference` at the root |
| MovieParser.ResolveOnDirectoryPage | support/MovieParser.php:172-174 | on a page whose path ends in a slash, `d/name/`, a relative reference lands in `d`, not in `d/name` |
| MovieParser.DirectoryPageResolvesAgainstParent | support/MovieParser.php:173-174 | `dirname` ignores a trailing slash, so `p/` and `p` have the same directory prefix |
| MovieParser.ResolveAbsoluteExamples | support/MovieParser.php:155-164 | an https reference is kept; `//cdn.com/a.png` on an https page becomes `https://cdn.com/a.png` |
| MovieParser.ResolveRootRelativeExample | support/MovieParser.php:167-169 | `/a.png` on `https://y.com/dir/p` becomes `https://y.com/a.png` |
| MovieParser.StripSuffix | support/MovieParser.php:85-86 | with no separator followed by an end of line the title is unchanged; otherwise it is cut at the first such separator, keeping a final line break |
| MovieParser.OneLineStripSuffix | support/MovieParser.php:85-86 | a one-line title is cut just before the first occurrence of the separator |
| MovieParser.SlugTitle | support/MovieParser.php:91-98 | a missing or falsy path gives the empty title |
| MovieParser.LastSegmentOfPath | support/MovieParser.php:92-94 | the last segment survives the slash trim and is what remains after the last slash; such a path is truthy |
| MovieParser.SlugTitleOfLastSegment | support/MovieParser.php:91-96 | the fallback title is built from the last path segment, whatever precedes it and however many slashes follow it |
| MovieParser.ExtractTitle | support/MovieParser.php:71-99 | the first og:title content, trimmed, even when empty; else the first `<title>` text, trimmed and cut at its site suffix; else the slug of the URL path |
| MovieParser.CleanedNamedTitle | support/MovieParser.php:83-87 | a one-line `name - site`, padded on the right by nothing `trim` removes, is cut back to `name` |
| MovieParser.TitleSiteSuffixRemoved | support/MovieParser.php:83-87 | a `<title>` of `name - site` yields `name` |
| MovieParser.ExtractDescription | support/MovieParser.php:104-121 | the first og:description content, trimmed; else the first description meta content, trimmed; else empty |
| MovieParser.ExtractPosterUrl | support/MovieParser.php:126-147 | the resolved first og:image; else the resolved `src` of the first image whose `src` is truthy and mentions neither `icon` nor `logo`; else empty |
| MovieParser.PosterSkipsLogo | support/MovieParser.php:138-144 | without og:image, an image whose `src` mentions `logo` or `icon` is passed over for the acceptable one after it |
| MovieParser.Parse | support/MovieParser.php:10-66 | a failed fetch gives failure with three empty strings; otherwise success holds exactly when the title is truthy, and the description and poster are filled in either way |
| MovieParser.BlankOgTitleFails | support/MovieParser.php:43-47 | a blank og:title wins over any `<title>` and makes the parse fail |
| MovieParser.ZeroTitleFails | support/MovieParser.php:44 | a title of `"0"` is falsy, so the parse fails |
| MovieModel.Find | app/model/Movie.php:13-19 | null exactly when no row has the id; otherwise a row of the table with that id |
| MovieModel.InsertByAge | app/model/Movie.php:35 | inserting a row adds exactly that row, and the result starts with it or with the old first row |
| MovieModel.InsertByAgeKeepsOrder | app/model/Movie.php:35 | inserting a row into a newest-first list keeps it newest first |
| MovieModel.NewestFirst | app/model/Movie.php:35 | the same rows, as a multiset, newest first |
| MovieModel.NewestFirstWhere | app/model/Movie.php:28-37 | `WHERE ... ORDER BY created_at DESC`: newest first, only rows of the table that pass the filter, and every such row; as a multiset, exactly the rows the filter keeps |
| MovieModel.NewestFirstWhereMultiplicity | app/model/Movie.php:28-37 | each row passing the filter appears as many times as the table holds it, and no other row appears |
| MovieModel.WindowOfNewestFirst | app/model/Movie.php:30 | a `LIMIT/OFFSET` window of a newest-first list is newest first and holds only its rows |
| MovieModel.Listing | app/model/Movie.php:28-38 | every row of the user, in the category when that category is truthy, and only those, newest first |
| MovieModel.FindByUserId | app/model/Movie.php:24-41 | only the user's listed rows, newest first, at most `perPage` of them, and none once the offset passes the count |
| MovieModel.FindByUserIdIsWindow | app/model/Movie.php:26-37 | page `p` is the listing from row `(p-1)·perPage` for `perPage` rows or to the end, and empty once that row is past the end |
| MovieModel.CountByUserId | app/model/Movie.php:46-56 | zero exactly when no row passes the filter |
| MovieModel.CountMatchesListing | app/model/Movie.php:28-55 | the count equals the size of the unpaged listing: the same filter |
| MovieModel.Search | app/model/Movie.php:61-73 | exactly the user's rows whose title, or non-null description, is LIKE `%keyword%`, newest first, each as often as the table holds it; the number of rows is the number of matches, which `index` shows as the total |
| MovieModel.NewRow | app/model/Movie.php:85-92 | category defaults to the uncategorised label, description and poster stay null when absent, and both timestamps are the insertion time |
| MovieModel.Create | app/model/Movie.php:78-95 | the table gains exactly the new row, at the end |
| MovieModel.CreateThenFind | app/model/Movie.php:78-95 | under a fresh id the new row is found and belongs to its user, and every other id finds what it found before |
| MovieModel.UpdateStatement | app/model/Movie.php:100-118 | one placeholder per bound value; whitelisted values in input order, then the id |
| MovieModel.UpdateStatementText | app/model/Movie.php:102-117 | the SQL is `UPDATE movies SET`, one `column = ?` per whitelisted pair in input order, `updated_at = datetime('now')`, then `WHERE id = ?`; the i-th placeholder assigns the i-th pair's column and receives its value |
| MovieModel.Update | app/model/Movie.php:100-118 | the prepared statement binds one value per placeholder, and the table keeps its size |
| MovieModel.AssignAllWritesLastValues | app/model/Movie.php:115-117 | a SET list writes the last value given for each whitelisted column and leaves id, owner and timestamps alone |
| MovieModel.UpdateChangesOnlyWhitelisted | app/model/Movie.php:100-118 | only the row with the id changes, and in it only whitelisted columns (each to the last value given for it, description and poster URL included) and `updated_at` |
| MovieModel.UpdateIgnoresOtherKeys | app/model/Movie.php:105-110 | a key off the whitelist changes neither the statement nor the table |
| MovieModel.BelongsToUser | app/model/Movie.php:132-137 | true exactly when some row has that id and that owner |
| MovieModel.Delete | app/model/Movie.php:123-127 | removes exactly the rows with that id and owner, keeping every other row |
| MovieModel.DeleteWithoutOwnershipIsNoop | app/model/Movie.php:125 | deleting a movie the user does not own changes nothing |
| MovieModel.Bump | app/model/Movie.php:145 | counting one more row of a category adds one to that category only, and one to the total |
| MovieModel.BumpKeepsOrder | app/model/Movie.php:145 | counting one more row keeps the list strictly ordered by category, and keeps every category that sorted before both the list and the new one sorting before it |
| MovieModel.Tally | app/model/Movie.php:145 | GROUP BY/ORDER BY category yields a strictly ordered list of positive counts, one per category, each the number of rows in it |
| MovieModel.GetCategoriesByUserId | app/model/Movie.php:142-149 | one entry per category the user uses, in collation order, each with the user's movie count there, the counts summing to the user's total |
| MovieModel.CategoryCountMatchesFilteredTotal | app/model/Movie.php:46-56 | the count shown for a truthy category is what the category-filtered count reports |
| MovieModel.ListedIffUsed | app/model/Movie.php:145 | a category has a positive count exactly when it is listed |
| MovieModel.FindAll | app/model/Movie.php:154-162 | rows of the table, newest first, at most `perPage` |
| MovieModel.FindAllIsWindow | app/model/Movie.php:154-162 | page `p` is every movie, newest first, from row `(p-1)·perPage` for `perPage` rows or to the end, and empty once that row is past the end |
| MovieModel.CountAll | app/model/Movie.php:167-172 | the count is the number of rows the ordering lists |
| UserModel.Find | app/model/User.php:13-19 | null exactly when no row has the id |
| UserModel.FindByUsername | app/model/User.php:24-30 | null exactly when no row has the name; otherwise a row with that name |
| UserModel.FindByEmail | app/model/User.php:35-41 | null exactly when no row has that email; a null email never matches |
| UserModel.NewRow | app/model/User.php:46-60 | the stored password is the hash of the given one, and the email is null when absent |
| UserModel.Create | app/model/User.php:46-60 | the table gains exactly the new row, at the end |
| UserModel.CreateThenFindByUsername | app/model/User.php:46-60 | a new row under a free name is found by it, and lookups of other names do not change |
| UserModel.CreateKeepsUsernamesUnique | app/model/User.php:46-60 | appending under a free name keeps usernames unique |
| UserModel.UpdateStatement | app/model/User.php:65-88 | one placeholder per bound value; username and email in input order, then the hashed password when one is given, then the id |
| UserModel.UpdateStatementText | app/model/User.php:67-86 | the SQL is `UPDATE users SET`, one `column = ?` per username or email pair in input order, `password = ?` when a password is given, `updated_at = datetime('now')`, then `WHERE id = ?` |
| UserModel.AssignAllWritesLastValues | app/model/User.php:70-75 | a SET list writes the last username and email given and leaves id, password and timestamps alone |
| UserModel.Update | app/model/User.php:65-88 | the prepared statement binds one value per placeholder, and the table keeps its size |
| UserModel.UpdateChangesOnlyGivenFields | app/model/User.php:65-88 | only the row with the id changes: username and email to the values given, password to the digest of a new one, and `updated_at` |
| UserModel.Delete | app/model/User.php:93-97 | removes exactly the rows with the id, so it is not found afterwards; every other row stays with its multiplicity, and the table shrinks by the number of rows with the id |
| UserModel.CreatedPasswordVerifies | app/model/User.php:102-105 | with a verifier that accepts its hasher's output, a new user's password checks out |
| AuthController.SignedIn | app/controller/AuthController.php:48-49 | the session holds the user's id and name and keeps every other key |
| AuthController.LoginPage | app/controller/AuthController.php:14-21 | redirects to `/movies` exactly when a user id is in the session; otherwise shows the form |
| AuthController.RegisterPage | app/controller/AuthController.php:61-68 | the same rule in front of the registration form |
| AuthController.DoLogin | app/controller/AuthController.php:26-56 | success exactly when both fields are given and the password verifies for that name, storing that user's id and name; failure leaves the session alone |
| AuthController.LoginDoesNotRevealUsernames | app/controller/AuthController.php:40-45 | an unknown name and a wrong password get the same message |
| AuthController.RegisterCheck | app/controller/AuthController.php:81-123 | the checks run in the order credentials, username length, password length, confirmation, free name, free email: each error is returned exactly when every earlier check passes and its own fails, and none exactly when the form is acceptable |
| AuthController.AcceptableIffChainPasses | app/controller/AuthController.php:81-123 | the acceptable forms are exactly those that get through every check of the chain |
| AuthController.DoRegister | app/controller/AuthController.php:73-148 | success exactly when the form is acceptable and the insert does not throw; then the row is stored and the session logged in; otherwise nothing changes and the first failing check's message is returned |
| AuthController.RegisterKeepsUsernamesUnique | app/controller/AuthController.php:109-131 | registration never lets two users share a name |
| AuthController.RegisterTwiceIsRefused | app/controller/AuthController.php:110-115 | the same form submitted again is refused because the name is taken |
| AuthController.RegisterThenLogin | app/controller/AuthController.php:127-135 | whoever just registered can log in with the same name and password |
| AuthController.Logout | app/controller/AuthController.php:153-158 | forgets exactly the user id and name and redirects to `/login` |
| AuthController.LogoutEndsSession | app/controller/AuthController.php:153-158 | after logout the login page shows the form, and a second logout changes nothing |
| AuthController.LoginThenLogout | app/controller/AuthController.php:48-49 | logging in and out leaves the session as logging out alone would |
| MovieController.CategoryFilter | app/controller/MovieController.php:30 | a falsy category filters nothing |
| MovieController.Index | app/controller/MovieController.php:15-44 | page at least 1 and the page count is the ceiling of total/20; a truthy search lists all matches and counts them, ignoring page and category; otherwise the page and the count use the same filter |
| MovieController.IndexPagesAgreeWithCount | app/controller/MovieController.php:29-33 | without a search, a list page has movies exactly when it is within the page count, and those pages cover the listing |
| MovieController.ParseUrl | app/controller/MovieController.php:65-102 | a missing or falsy URL, then an invalid URL, is refused before any fetch; a successful parse is copied through; anything else is a failure |
| MovieController.RejectedUrlIsNotFetched | app/controller/MovieController.php:69-82 | a refused URL gets the same answer whatever the network would return |
| MovieController.UnreachablePageNotParsed | app/controller/MovieController.php:96-100 | an unreachable page is reported as unparsable |
| MovieController.UploadUrl | app/controller/MovieController.php:128 | an uploaded video's URL is under `/videos/` |
| MovieController.UploadKeepsExtension | app/controller/MovieController.php:120-128 | the served file is the stored name and keeps the uploaded file's extension |
| MovieController.StoredNameIsOneName | app/controller/MovieController.php:121-122 | the stored name is the unique id, a dot and the extension, and holds no slash when the id holds none |
| MovieController.StoreInput | app/controller/MovieController.php:110-128 | an upload takes the file name as title and the video URL; otherwise the trimmed form fields; the category defaults to the uncategorised label |
| MovieController.StoreCheck | app/controller/MovieController.php:118-150 | no error exactly when the upload moved, or, without one, the title and URL are truthy and the URL is accepted; the upload-failed message exactly when the move failed, the fields-required message exactly when there is no upload and the title or URL is falsy, the URL-invalid message exactly when they are truthy but the URL is not accepted |
| MovieController.AppendKeepsUrlsAccepted | app/controller/MovieController.php:153-161 | adding a row with an accepted URL keeps every stored URL accepted |
| MovieController.Store | app/controller/MovieController.php:107-174 | a movie is added exactly when the checks pass and the insert does not throw; a failing check answers with its own message, and the store-failed message comes exactly when the checks pass and the insert throws; every stored URL stays accepted |
| MovieController.BlankFieldsRefused | app/controller/MovieController.php:137-142 | a blank title or URL is refused before the URL is looked at |
| MovieController.EditPage | app/controller/MovieController.php:179-189 | the edit form is shown exactly when the movie belongs to the user, and it is given the movie `find` returns; a 404 page otherwise |
| MovieController.EditPageShowsOwnMovie | app/controller/MovieController.php:182-188 | with ids unique, the movie the edit form receives is the user's own movie with the requested id |
| MovieController.PlayPage | app/controller/MovieController.php:252-261 | any existing movie plays, whoever owns it, and the view is given the movie `find` returns; a missing one gets a 404 page |
| MovieController.Update | app/controller/MovieController.php:194-247 | a movie the user does not own is refused before anything else; success exactly when owned, title and URL given, URL accepted and no throw; fields-required exactly when owned and the title or URL is falsy, URL-invalid exactly when they are truthy and the URL is not accepted, update-failed exactly when every check passes and the write throws |
| MovieController.UpdateStoresForm | app/controller/MovieController.php:212-246 | a successful edit stores all five trimmed fields in that movie only, so a form without a description or poster URL overwrites the stored one with `""`; `updated_at` becomes the time of the edit, while owner and `created_at` stay; every stored URL stays accepted |
| MovieController.EditedTable | app/controller/MovieController.php:228-234 | writing a form that gives each of the five columns once stores exactly those values in every row with the id, sets `updated_at` and keeps owner and `created_at`; other rows are untouched |
| MovieController.UpdateOthersForbidden | app/controller/MovieController.php:198-203 | editing another user's movie changes nothing, whatever the form holds |
| MovieController.Delete | app/controller/MovieController.php:266-302 | refused unless owned; on success the row goes, and a file is removed exactly when the movie's URL starts with `/videos/`; the delete-failed message exactly when the movie is owned and the delete throws |
| MovieController.DeleteKeepsUrlsAccepted | app/controller/MovieController.php:266-302 | deleting keeps every stored URL accepted |
| MovieController.DeleteFollowsParentSegments | app/controller/MovieController.php:285-289 | the file removed is the stored URL as it is: `/videos/../x` passes the form check and is removed as that path |
| IndexController.Index | app/controller/IndexController.php:10-23 | page at least 1; the page of every user's movies, newest first; total and page count passed on unchanged |
| IndexController.HomePagesCoverAllMovies | app/controller/IndexController.php:12-15 | the home page has movies exactly when it is within the page count, and those pages show every movie once |
| IndexController.Json | app/controller/IndexController.php:30-33 | always code 0 and message `ok` |

## Left out

- The network fetch in `parse` is a parameter: the outcome is the fetched document or `None`. The fetch itself, with its timeout, user agent and disabled TLS verification, is I/O.
- HTML decoding and DOM parsing are not modelled. The page is the sequence of elements the XPath queries select, in document order.
- The `catch` in `parse` is left out. The element lookups on the abstract document cannot throw.
- A fetched page whose body is empty is not told apart from a page without the elements the lookups select. In the source, `loadHTML` rejects the empty string with a `ValueError`, which is not an `\Exception`, so `parse` does not catch it and `parseUrl` fails with an uncaught error. The model parses such a page like any other, which can succeed on the slug title.
- `parse_url` is left out. The page URL arrives already split into optional scheme, host and path.
- `filter_var(..., FILTER_VALIDATE_URL)` is an uninterpreted predicate.
- `password_hash` and `password_verify` are uninterpreted functions.
- SQL `LIKE` in `search` is an uninterpreted predicate, because its case folding and wildcards are engine details.
- The engine's choices are parameters: `lastInsertId`, `datetime('now')` (timestamps are integers), `uniqid()`, the upload's `move` and whether a database call throws.
- MovieModel.NewestFirst: rows with equal `created_at` come out in one fixed order. SQL leaves that order open.
- The `(int)` cast of the `page` query parameter is not modelled. The requested page arrives as an integer.
- `ceil($total / 20)` is computed on floats in the source. The model uses integer ceiling division.
- MovieModel.FindByUserId, MovieModel.FindAll: the offset `($page - 1) * $perPage` (app/model/Movie.php:26, 156) is a PHP 64-bit integer that turns into a float once the page number passes about 4.6·10^17. SQLite then rejects the offset and the query throws, and `index` has no `catch`, so such a request fails. The model's integers are unbounded and return an empty page instead.
- Titles that contain line breaks are covered by `StripSuffix`'s contract only. The worked lemmas assume one-line titles.
- The `$data` array passed to `Movie::update` and `User::update` is modelled as a sequence of key/value pairs (MovieModel.Update, UserModel.Update), which may repeat keys. A PHP array cannot repeat a key, so the model covers more inputs than the source sees.
- Request parameters are a map from names to single strings. An array-valued field such as `title[]=x` makes `trim()` throw a `TypeError` in the source (app/controller/MovieController.php:110-114); the model cannot express such a request.
- Session middleware and route protection are not modelled. The controllers receive the logged-in user's id as an integer.
- MovieController.EditPage, MovieController.PlayPage, MovieController.Update, MovieController.Delete: the movie id arrives as an integer. In the source the `{id}` of the edit, update and delete routes (config/route.php:36-38) is an unconstrained path segment, and every one of these actions takes `$id` untyped (app/controller/MovieController.php:179, 194, 252, 266) and passes it to `Movie::find(int $id)` and `belongsToUser(int $id, ...)`, so a non-numeric id such as `/movies/abc/edit` throws an uncaught `TypeError` before the ownership check; the model has no such request.
- Php.ByteLength, Php.Trim, Php.TrimBy, Php.TrimLeftBy, Php.TrimRightBy, Php.UcFirst: text is a sequence of Unicode characters, and all request text is assumed to be valid UTF-8. PHP strings are raw bytes, and `strlen`, `trim` and `ucfirst` accept any bytes, invalid UTF-8 included; the model cannot represent such input.
- View rendering is not modelled. A view is its template name, together with the data the source passes to it: `ListView`, `HomeView`, and `MoviePage` carrying the movie. The login and registration forms receive no data and are `View(template)`.
- The `create` and `batchImport` pages and `IndexController::view` are not modelled, because each only renders a fixed view.
- Removing the file in `delete` is an output. `removed` names the path whose file would be unlinked.
- `unlink` and `file_exists` themselves are not modelled.
- `support/Database.php`, `config/route.php`, `app/middleware/AuthMiddleware.php`, `app/process/Http.php` and `check_requirements.php` are not part of this model.
- `config/parser.php` defines an OpenGraph API fallback and a proxy. No parser code consumes them, so the model follows the code and leaves them out.

=== FILE: auth_controller.dfy ===
/** Login, registration and logout (`app/controller/AuthController.php`).

    Each action takes the users table and the session and returns the response
    together with the session (and, for registration, the table) afterwards.
    Hashing, password checking, the new row's id and the time are parameters.
    So is whether the insert throws. */
module AuthController {
  import opened Common
  import opened Php
  import opened Http
  import UserModel

  /** Where a logged-in user is sent. */
  const MoviesPath := "/movies"
  const LoginPath := "/login"

  const BlankCredentialsMessage := "用户名和密码不能为空"
  const WrongCredentialsMessage := "用户名或密码错误"
  const LoginSuccessMessage := "登录成功"
  const RegisterSuccessMessage := "注册成功"

  /** The session after a successful login or registration. */
  function SignedIn(session: Session, id: int, username: string): (s: Session)
    ensures "user_id" in s && s["user_id"] == IntValue(id)
    ensures "username" in s && s["username"] == TextValue(username)
    ensures forall k :: k in session && k != "user_id" && k != "username" ==> k in s && s[k] == session[k]
    ensures id != 0 ==> LoggedIn(s)
  {
    session["user_id" := IntValue(id)]["username" := TextValue(username)]
  }

  // ----- login / register pages -----

  /** `login`: a logged-in user is sent to the movie list; anyone else gets the form. */
  function LoginPage(session: Session): (r: Response)
    ensures r.Redirect? <==> LoggedIn(session)
    ensures r.Redirect? ==> r.location == MoviesPath
    ensures !r.Redirect? ==> r == View("auth/login")
  {
    if LoggedIn(session) then Redirect(MoviesPath) else View("auth/login")
  }

  /** `register`: the same rule in front of the registration form. */
  function RegisterPage(session: Session): (r: Response)
    ensures r.Redirect? <==> LoggedIn(session)
    ensures r.Redirect? ==> r.location == MoviesPath
    ensures !r.Redirect? ==> r == View("auth/register")
  {
    if LoggedIn(session) then Redirect(MoviesPath) else View("auth/register")
  }

  // ----- doLogin -----

  /** The credentials check out: both are given, the name exists, and the password verifies
      against its stored digest. */
  predicate CredentialsValid(users: UserModel.Table, username: Option<string>, password: Option<string>,
                             verify: (string, UserModel.Digest) -> bool)
  {
    && Given(username) && Given(password)
    && UserModel.FindByUsername(users, username.value).Some?
    && UserModel.VerifyPassword(UserModel.FindByUsername(users, username.value).value, password.value, verify)
  }

  /** `doLogin`: a blank field, an unknown name and a wrong password all fail and leave the
      session alone; valid credentials store the user's id and name in the session. */
  function DoLogin(users: UserModel.Table, session: Session, params: Params,
                   verify: (string, UserModel.Digest) -> bool): (r: (Response, Session))
    ensures var username := Input(params, "username");
      var password := Input(params, "password");
      && (r.0.Success? <==> CredentialsValid(users, username, password, verify))
      && (r.0.Success? ==>
            var user := UserModel.FindByUsername(users, username.value).value;
            && r.0 == Success(LoginSuccessMessage, Some(MoviesPath))
            && r.1 == SignedIn(session, user.id, user.username))
      && (!r.0.Success? ==> r.1 == session && r.0.Failure?)
      && (!(Given(username) && Given(password)) ==> r.0 == Failure(BlankCredentialsMessage))
  {
    var username := Input(params, "username");
    var password := Input(params, "password");
    if !Given(username) || !Given(password) then
      (Failure(BlankCredentialsMessage), session)
    else
      var user := UserModel.FindByUsername(users, username.value);
      if user.None? || !UserModel.VerifyPassword(user.value, password.value, verify) then
        (Failure(WrongCredentialsMessage), session)
      else
        (Success(LoginSuccessMessage, Some(MoviesPath)), SignedIn(session, user.value.id, user.value.username))
  }

  /** An unknown username and a wrong password for a known one get the same answer, so the
      response does not tell which names exist. */
  lemma LoginDoesNotRevealUsernames(users: UserModel.Table, session: Session, params: Params,
                                    verify: (string, UserModel.Digest) -> bool)
    requires Given(Input(params, "username")) && Given(Input(params, "password"))
    requires !CredentialsValid(users, Input(params, "username"), Input(params, "password"), verify)
    ensures DoLogin(users, session, params, verify).0 == Failure(WrongCredentialsMessage)
  {
  }

  // ----- doRegister -----

  /** The reasons `doRegister` turns a request down, in the order it checks them. */
  datatype RegisterError =
    | MissingCredentials
    | UsernameLength
    | PasswordTooShort
    | PasswordMismatch
    | UsernameTaken
    | EmailTaken
    | StoreFailed

  function Message(e: RegisterError): string {
    match e
    case MissingCredentials => BlankCredentialsMessage
    case UsernameLength => "用户名长度必须在3-50个字符之间"
    case PasswordTooShort => "密码长度至少为6个字符"
    case PasswordMismatch => "两次输入的密码不一致"
    case UsernameTaken => "用户名已存在"
    case EmailTaken => "邮箱已被注册"
    case StoreFailed => "注册失败，请稍后重试"
  }

  /** The registration form as submitted; absent fields are `None`. */
  datatype Registration = Registration(
    username: Option<string>,
    password: Option<string>,
    confirm: Option<string>,
    email: Option<string>)

  function FormOf(params: Params): Registration {
    Registration(Input(params, "username"), Input(params, "password"),
                 Input(params, "confirm_password"), Input(params, "email"))
  }

  /** Everything `doRegister` demands, stated at once: both credentials given, a username of 3
      to 50 bytes, a password of at least 6 bytes, an identical confirmation, a free username,
      and, when an email is given, a free email. */
  predicate Acceptable(users: UserModel.Table, f: Registration) {
    && Given(f.username) && Given(f.password)
    && 3 <= ByteLength(f.username.value) <= 50
    && ByteLength(f.password.value) >= 6
    && f.confirm == f.password
    && UserModel.FindByUsername(users, f.username.value).None?
    && !(Given(f.email) && UserModel.FindByEmail(users, f.email.value).Some?)
  }

  /** The condition each check of `doRegister` demands, on its own: the credentials are
      given, the username is 3 to 50 bytes, the password at least 6, the confirmation equals
      the password, the username is free, and a given email is free. Storing is not a check. */
  predicate Passes(users: UserModel.Table, f: Registration, e: RegisterError) {
    match e
    case MissingCredentials => Given(f.username) && Given(f.password)
    case UsernameLength => f.username.Some? && 3 <= ByteLength(f.username.value) <= 50
    case PasswordTooShort => f.password.Some? && ByteLength(f.password.value) >= 6
    case PasswordMismatch => f.password == f.confirm
    case UsernameTaken => f.username.Some? && UserModel.FindByUsername(users, f.username.value).None?
    case EmailTaken => !(Given(f.email) && UserModel.FindByEmail(users, f.email.value).Some?)
    case StoreFailed => true
  }

  /** The position of each check in the chain. */
  function Rank(e: RegisterError): nat {
    match e
    case MissingCredentials => 0
    case UsernameLength => 1
    case PasswordTooShort => 2
    case PasswordMismatch => 3
    case UsernameTaken => 4
    case EmailTaken => 5
    case StoreFailed => 6
  }

  /** Every check `doRegister` makes before `e` passes, in the order the source makes them. */
  predicate PassedBefore(users: UserModel.Table, f: Registration, e: RegisterError)
    decreases Rank(e)
  {
    match e
    case MissingCredentials => true
    case UsernameLength => Passes(users, f, MissingCredentials)
    case PasswordTooShort => PassedBefore(users, f, UsernameLength) && Passes(users, f, UsernameLength)
    case PasswordMismatch => PassedBefore(users, f, PasswordTooShort) && Passes(users, f, PasswordTooShort)
    case UsernameTaken => PassedBefore(users, f, PasswordMismatch) && Passes(users, f, PasswordMismatch)
    case EmailTaken => PassedBefore(users, f, UsernameTaken) && Passes(users, f, UsernameTaken)
    case StoreFailed => PassedBefore(users, f, EmailTaken) && Passes(users, f, EmailTaken)
  }

  /** The validation chain of `doRegister`: the first check that fails, or none. */
  function RegisterCheck(users: UserModel.Table, f: Registration): (r: Option<RegisterError>)
    ensures r.None? <==> Acceptable(users, f)
    ensures forall e :: r == Some(e) <==> PassedBefore(users, f, e) && !Passes(users, f, e)
    ensures r != Some(StoreFailed)
  {
    if !Given(f.username) || !Given(f.password) then Some(MissingCredentials)
    else if ByteLength(f.username.value) < 3 || ByteLength(f.username.value) > 50 then Some(UsernameLength)
    else if ByteLength(f.password.value) < 6 then Some(PasswordTooShort)
    else if f.password != f.confirm then Some(PasswordMismatch)
    else if UserModel.FindByUsername(users, f.username.value).Some? then Some(UsernameTaken)
    else if Given(f.email) && UserModel.FindByEmail(users, f.email.value).Some? then Some(EmailTaken)
    else None
  }

  /** Acceptable means every check passes: the form gets through the whole chain. */
  lemma AcceptableIffChainPasses(users: UserModel.Table, f: Registration)
    ensures Acceptable(users, f) <==> PassedBefore(users, f, StoreFailed)
  {
  }

  /** The result of an action that may write the users table. */
  datatype Outcome = Outcome(response: Response, session: Session, users: UserModel.Table)

  /** `doRegister`: on an acceptable form the user is stored (password hashed, email as
      given) and logged in; otherwise, or when the insert throws, nothing changes. */
  function DoRegister(users: UserModel.Table, session: Session, params: Params,
                      hash: string -> UserModel.Digest, newId: int, now: int, storeFails: bool): (o: Outcome)
    ensures var f := FormOf(params);
      && (o.response.Success? <==> Acceptable(users, f) && !storeFails)
      && (o.response.Success? ==>
            var row := UserModel.NewRow(f.username.value, f.password.value, f.email, hash, newId, now);
            && o.response == Success(RegisterSuccessMessage, Some(MoviesPath))
            && o.users == users + [row]
            && o.session == SignedIn(session, newId, f.username.value)
            && UserModel.FindByUsername(o.users, f.username.value) == Some(row))
      && (!o.response.Success? ==> o.users == users && o.session == session && o.response.Failure?)
      && (RegisterCheck(users, f).Some? ==> o.response == Failure(Message(RegisterCheck(users, f).value)))
      && (Acceptable(users, f) && storeFails ==> o.response == Failure(Message(StoreFailed)))
  {
    var f := FormOf(params);
    match RegisterCheck(users, f)
    case Some(e) => Outcome(Failure(Message(e)), session, users)
    case None =>
      if storeFails then Outcome(Failure(Message(StoreFailed)), session, users)
      else
        var t := UserModel.Create(users, f.username.value, f.password.value, f.email, hash, newId, now);
        UserModel.CreateThenFindByUsername(users, f.username.value, f.password.value, f.email, hash, newId, now);
        Outcome(Success(RegisterSuccessMessage, Some(MoviesPath)), SignedIn(session, newId, f.username.value), t)
  }

  /** Registration never lets two users share a name. */
  lemma RegisterKeepsUsernamesUnique(users: UserModel.Table, session: Session, params: Params,
                                     hash: string -> UserModel.Digest, newId: int, now: int, storeFails: bool)
    requires UserModel.UniqueUsernames(users)
    ensures UserModel.UniqueUsernames(DoRegister(users, session, params, hash, newId, now, storeFails).users)
  {
    var f := FormOf(params);
    if Acceptable(users, f) && !storeFails {
      UserModel.CreateKeepsUsernamesUnique(users, f.username.value, f.password.value, f.email, hash, newId, now);
    }
  }

  /** Submitting the same accepted form a second time is refused: the name is taken now. */
  lemma RegisterTwiceIsRefused(users: UserModel.Table, session: Session, params: Params,
                               hash: string -> UserModel.Digest, newId: int, now: int,
                               session2: Session, newId2: int, now2: int, storeFails2: bool)
    requires DoRegister(users, session, params, hash, newId, now, false).response.Success?
    ensures var o := DoRegister(users, session, params, hash, newId, now, false);
      DoRegister(o.users, session2, params, hash, newId2, now2, storeFails2).response == Failure(Message(UsernameTaken))
  {
  }

  /** With a verifier that accepts what the hasher produced, whoever just registered can log in
      with the same name and password, and the login stores the new id. */
  lemma RegisterThenLogin(users: UserModel.Table, session: Session, params: Params,
                          hash: string -> UserModel.Digest, verify: (string, UserModel.Digest) -> bool,
                          newId: int, now: int, session2: Session)
    requires forall p :: verify(p, hash(p))
    requires DoRegister(users, session, params, hash, newId, now, false).response.Success?
    ensures var o := DoRegister(users, session, params, hash, newId, now, false);
      var login := DoLogin(o.users, session2, params, verify);
      && login.0 == Success(LoginSuccessMessage, Some(MoviesPath))
      && login.1 == SignedIn(session2, newId, FormOf(params).username.value)
  {
    var f := FormOf(params);
    var row := UserModel.NewRow(f.username.value, f.password.value, f.email, hash, newId, now);
    UserModel.CreatedPasswordVerifies(f.username.value, f.password.value, f.email, hash, verify, newId, now);
    assert UserModel.VerifyPassword(row, f.password.value, verify);
  }

  // ----- logout -----

  /** `logout`: forgets the user id and name, keeps the rest of the session, and sends the
      browser to the login page. */
  function Logout(session: Session): (r: (Response, Session))
    ensures r.0 == Redirect(LoginPath)
    ensures "user_id" !in r.1 && "username" !in r.1
    ensures forall k :: k in session && k != "user_id" && k != "username" ==> k in r.1 && r.1[k] == session[k]
    ensures r.1.Keys <= session.Keys
  {
    (Redirect(LoginPath), session - {"user_id", "username"})
  }

  /** After logging out, the login page shows the form again, and logging out once more
      changes nothing. */
  lemma LogoutEndsSession(session: Session)
    ensures !LoggedIn(Logout(session).1)
    ensures LoginPage(Logout(session).1) == View("auth/login")
    ensures Logout(Logout(session).1).1 == Logout(session).1
  {
  }

  /** Logging in and then out leaves the session as it was, minus the two login keys. */
  lemma LoginThenLogout(users: UserModel.Table, session: Session, params: Params,
                        verify: (string, UserModel.Digest) -> bool)
    ensures Logout(DoLogin(users, session, params, verify).1).1 == Logout(session).1
  {
  }
}

=== FILE: common.dfy ===
/** Small generic building blocks shared by the rest of the model: the optional
    value PHP spells `null`, and "the first element that satisfies a test",
    which is what an XPath query followed by `->item(0)` and a `foreach` that
    returns on its first hit both compute. */
module Common {

  /** A value that may be absent (PHP's `null`). */
  datatype Option<+T> = None | Some(value: T) {

    /** `$x ?? $default` */
    function GetOr(default: T): T {
      match this
      case Some(v) => v
      case None => default
    }
  }

  /** `i` is the position of the first element of `xs` that satisfies `p`. */
  ghost predicate FirstWhere<T>(xs: seq<T>, p: T -> bool, i: int) {
    && 0 <= i < |xs|
    && p(xs[i])
    && forall j :: 0 <= j < i ==> !p(xs[j])
  }

  /** No element of `xs` satisfies `p`. */
  ghost predicate NoneWhere<T>(xs: seq<T>, p: T -> bool) {
    forall j :: 0 <= j < |xs| ==> !p(xs[j])
  }

  /** The index of the first element of `xs` satisfying `p`, scanning from the front. */
  function FindFirst<T>(xs: seq<T>, p: T -> bool): (r: Option<nat>)
    ensures r.Some? ==> FirstWhere(xs, p, r.value)
    ensures r.None? <==> NoneWhere(xs, p)
  {
    if |xs| == 0 then None
    else if p(xs[0]) then Some(0)
    else
      match FindFirst(xs[1..], p)
      case None => None
      case Some(k) => Some(k + 1)
  }

  /** The elements of `xs` that satisfy `p`, in their original order (a SQL `WHERE`). */
  function Filter<T>(xs: seq<T>, p: T -> bool): (r: seq<T>)
    ensures |r| <= |xs|
    ensures forall i :: 0 <= i < |r| ==> p(r[i]) && r[i] in xs
    ensures forall j :: 0 <= j < |xs| && p(xs[j]) ==> xs[j] in r
    ensures multiset(r) <= multiset(xs)
  {
    if |xs| == 0 then []
    else
      assert xs == [xs[0]] + xs[1..];
      if p(xs[0]) then [xs[0]] + Filter(xs[1..], p)
      else Filter(xs[1..], p)
  }

  /** Two sequences holding the same multiset hold the same elements. */
  lemma SameMembers<T>(a: seq<T>, b: seq<T>)
    requires multiset(a) == multiset(b)
    ensures forall x :: x in a <==> x in b
  {
    forall x ensures x in a <==> x in b {
      assert x in a <==> x in multiset(a);
      assert x in b <==> x in multiset(b);
    }
  }

  /** How many elements of `xs` satisfy `p` (a SQL `COUNT(*)` with a `WHERE`). */
  function CountWhere<T>(xs: seq<T>, p: T -> bool): (n: nat)
    ensures n <= |xs|
    ensures n == 0 <==> NoneWhere(xs, p)
  {
    if |xs| == 0 then 0
    else (if p(xs[0]) then 1 else 0) + CountWhere(xs[1..], p)
  }

  /** Counting the matches is the same as keeping them and measuring the result. */
  lemma {:induction false} CountIsFilterSize<T>(xs: seq<T>, p: T -> bool)
    ensures CountWhere(xs, p) == |Filter(xs, p)|
  {
    if |xs| > 0 {
      CountIsFilterSize(xs[1..], p);
    }
  }

  /** Filtering distributes over concatenation. */
  lemma {:induction false} FilterAppend<T>(xs: seq<T>, ys: seq<T>, p: T -> bool)
    ensures Filter(xs + ys, p) == Filter(xs, p) + Filter(ys, p)
  {
    if |xs| == 0 {
      assert xs + ys == ys;
    } else {
      assert (xs + ys)[1..] == xs[1..] + ys;
      FilterAppend(xs[1..], ys, p);
    }
  }

  /** Filtering with a test every element passes keeps everything. */
  lemma {:induction false} FilterAll<T>(xs: seq<T>, p: T -> bool)
    requires forall i :: 0 <= i < |xs| ==> p(xs[i])
    ensures Filter(xs, p) == xs
  {
    if |xs| > 0 {
      FilterAll(xs[1..], p);
      assert xs == [xs[0]] + xs[1..];
    }
  }

  /** Keeping the elements a test rejects removes as many elements as the test counts. */
  lemma {:induction false} KeptAndDropped<T>(xs: seq<T>, keep: T -> bool, drop: T -> bool)
    requires forall x :: keep(x) == !drop(x)
    ensures |Filter(xs, keep)| + CountWhere(xs, drop) == |xs|
  {
    if |xs| > 0 {
      KeptAndDropped(xs[1..], keep, drop);
    }
  }

  /** Filtering keeps every copy of an element the test accepts and no copy of any other. */
  lemma {:induction false} FilterMultiplicity<T>(xs: seq<T>, p: T -> bool, x: T)
    ensures multiset(Filter(xs, p))[x] == if p(x) then multiset(xs)[x] else 0
  {
    if |xs| > 0 {
      FilterMultiplicity(xs[1..], p, x);
      assert xs == [xs[0]] + xs[1..];
      assert multiset(xs) == multiset([xs[0]]) + multiset(xs[1..]);
      if p(xs[0]) {
        assert Filter(xs, p) == [xs[0]] + Filter(xs[1..], p);
        assert multiset(Filter(xs, p)) == multiset([xs[0]]) + multiset(Filter(xs[1..], p));
      } else {
        assert Filter(xs, p) == Filter(xs[1..], p);
      }
    }
  }
}

=== FILE: http.dfy ===
/** The request and response vocabulary the controllers share: the session,
    the request parameters, PHP's truthiness of a parameter, and the handful of
    response shapes the actions return (a redirect, a rendered view, or a JSON
    body). */
module Http {
  import opened Common
  import opened Php

  /** A value stored in the session: the user id is an integer, the username text. */
  datatype SessionValue = IntValue(number: int) | TextValue(text: string)

  type Session = map<string, SessionValue>

  /** PHP truthiness of a session value. */
  predicate SessionTruthy(v: SessionValue) {
    match v
    case IntValue(n) => n != 0
    case TextValue(s) => Truthy(s)
  }

  /** `$request->session()->get('user_id')` is truthy. */
  predicate LoggedIn(s: Session) {
    "user_id" in s && SessionTruthy(s["user_id"])
  }

  /** The request's GET or POST parameters. */
  type Params = map<string, string>

  /** `$request->post($key)`: the value, or null when the key is absent. */
  function Input(p: Params, key: string): (r: Option<string>)
    ensures r.Some? <==> key in p
    ensures key in p ==> r.value == p[key]
  {
    if key in p then Some(p[key]) else None
  }

  /** `$request->post($key, $default)` */
  function InputOr(p: Params, key: string, default: string): (r: string)
    ensures key in p ==> r == p[key]
    ensures key !in p ==> r == default
  {
    if key in p then p[key] else default
  }

  /** PHP truthiness of a possibly-null string: null, `""` and `"0"` are false. */
  predicate Given(v: Option<string>) {
    v.Some? && Truthy(v.value)
  }

  /** What an action returns. The last four are the JSON bodies: `success` false with a
      message, `success` true with a message and perhaps a redirect target, `success` true
      with parsed movie data, and the `{code, msg}` status object. */
  datatype Response =
    | Redirect(location: string)
    | View(template: string)
    | Failure(message: string)
    | Success(message: string, redirect: Option<string>)
    | Parsed(title: string, description: string, posterUrl: string)
    | Status(code: int, msg: string)
}

=== FILE: index_controller.dfy ===
/** The public home page and the status endpoint
    (`app/controller/IndexController.php`). */
module IndexController {
  import opened Pagination
  import opened Http
  import MovieModel

  /** What the home view receives. */
  datatype HomeView = HomeView(movies: seq<MovieModel.Movie>, page: int, totalPages: nat, total: nat)

  /** `index`: page `max(1, page)` of every user's movies, newest first, with the total and the
      page count. `requestedPage` is the `page` query parameter as an integer. */
  function Index(t: MovieModel.Table, requestedPage: int): (v: HomeView)
    ensures v.page >= 1 && (requestedPage >= 1 ==> v.page == requestedPage)
    ensures v.total == |t| && v.totalPages == TotalPages(|t|)
    ensures v.movies == PageOf(MovieModel.NewestFirst(t), v.page)
    ensures |v.movies| <= PerPage
    ensures forall i :: 0 <= i < |v.movies| ==> v.movies[i] in t
  {
    var page := ClampPage(requestedPage);
    HomeView(MovieModel.FindAll(t, page, PerPage), page, TotalPages(MovieModel.CountAll(t)), MovieModel.CountAll(t))
  }

  /** The home page shows movies exactly when its number is within the page count, and the
      pages up to that count show every movie once, newest first. */
  lemma HomePagesCoverAllMovies(t: MovieModel.Table, requestedPage: int)
    ensures var v := Index(t, requestedPage);
      && (v.movies != [] <==> v.page <= v.totalPages)
      && PagesUpTo(MovieModel.NewestFirst(t), v.totalPages) == MovieModel.NewestFirst(t)
  {
    var v := Index(t, requestedPage);
    var all := MovieModel.NewestFirst(t);
    PageNonEmptyIffWithinCount(all, v.page);
    EveryRowOnSomePage(all);
  }

  /** `json`: the fixed status object. */
  function Json(): (r: Response)
    ensures r.Status? && r.code == 0 && r.msg == "ok"
  {
    Status(0, "ok")
  }
}

=== FILE: movie_controller.dfy ===
/** The movie actions (`app/controller/MovieController.php`): the list page,
    URL parsing, adding (by URL or by upload), editing and deleting.

    The logged-in user's id comes from the session as an integer. The route
    middleware guarantees a login here and is not part of this model. PHP's
    `filter_var(..., FILTER_VALIDATE_URL)`, `parse_url`, the page fetch, the
    uploaded file, `uniqid()`, the new row's id, the clock and a throwing
    database are all parameters. */
module MovieController {
  import opened Common
  import opened Php
  import opened Http
  import opened Pagination
  import MovieModel
  import MovieParser
  import Sql

  const VideosPrefix := "/videos/"
  const MoviesPath := "/movies"

  const UrlRequiredMessage := "URL不能为空"
  const UrlInvalidMessage := "URL格式不正确"
  const NotParsedMessage := "无法从URL获取电影信息，请手动填写"
  const FieldsRequiredMessage := "电影名称和URL不能为空"
  const UploadFailedMessage := "文件上传失败"
  const StoredMessage := "电影添加成功"
  const StoreFailedMessage := "添加失败，请稍后重试"
  const ForbiddenMessage := "无权操作此电影"
  const UpdatedMessage := "电影更新成功"
  const UpdateFailedMessage := "更新失败，请稍后重试"
  const DeletedMessage := "删除成功"
  const DeleteFailedMessage := "删除失败，请稍后重试"

  // ----- index -----

  /** What the list view receives. */
  datatype ListView = ListView(
    movies: seq<MovieModel.Movie>,
    page: int,
    totalPages: nat,
    total: nat,
    search: string,
    category: string,
    categories: seq<MovieModel.CategoryCount>)

  /** `$category ?: null` */
  function CategoryFilter(category: string): (c: Option<string>)
    ensures c.Some? <==> Truthy(category)
    ensures c.Some? ==> c.value == category
  {
    if Truthy(category) then Some(category) else None
  }

  /** `index`: a truthy search term lists every match unpaged and counts them; otherwise the
      page of the user's movies (in the chosen category, when one is chosen) is listed and
      the total is counted with the same filter. `requestedPage` is the `page` query
      parameter as an integer. */
  function Index(t: MovieModel.Table, userId: int, query: Params, requestedPage: int,
                 like: (string, string) -> bool): (v: ListView)
    ensures v.page >= 1 && (requestedPage >= 1 ==> v.page == requestedPage)
    ensures v.search == InputOr(query, "search", "") && v.category == InputOr(query, "category", "")
    ensures v.totalPages == TotalPages(v.total)
    ensures v.categories == MovieModel.GetCategoriesByUserId(t, userId)
    ensures Truthy(v.search) ==>
              v.movies == MovieModel.Search(t, userId, v.search, like) && v.total == |v.movies|
    ensures !Truthy(v.search) ==>
              && v.movies == MovieModel.FindByUserId(t, userId, v.page, PerPage, CategoryFilter(v.category))
              && v.total == MovieModel.CountByUserId(t, userId, CategoryFilter(v.category))
    ensures forall i :: 0 <= i < |v.movies| ==> v.movies[i] in t && v.movies[i].userId == userId
  {
    var page := ClampPage(requestedPage);
    var search := InputOr(query, "search", "");
    var category := InputOr(query, "category", "");
    var categories := MovieModel.GetCategoriesByUserId(t, userId);
    if Truthy(search) then
      var movies := MovieModel.Search(t, userId, search, like);
      ListView(movies, page, TotalPages(|movies|), |movies|, search, category, categories)
    else
      var movies := MovieModel.FindByUserId(t, userId, page, PerPage, CategoryFilter(category));
      var total := MovieModel.CountByUserId(t, userId, CategoryFilter(category));
      ListView(movies, page, TotalPages(total), total, search, category, categories)
  }

  /** Without a search, the list page has movies exactly when its number is at most the page
      count the view is given, and the pages up to that count show the whole listing. */
  lemma IndexPagesAgreeWithCount(t: MovieModel.Table, userId: int, query: Params, requestedPage: int,
                                 like: (string, string) -> bool)
    requires !Truthy(InputOr(query, "search", ""))
    ensures var v := Index(t, userId, query, requestedPage, like);
      && (v.movies != [] <==> v.page <= v.totalPages)
      && PagesUpTo(MovieModel.Listing(t, userId, CategoryFilter(v.category)), v.totalPages)
         == MovieModel.Listing(t, userId, CategoryFilter(v.category))
  {
    var v := Index(t, userId, query, requestedPage, like);
    var c := CategoryFilter(v.category);
    var all := MovieModel.Listing(t, userId, c);
    MovieModel.CountMatchesListing(t, userId, c);
    assert v.movies == PageOf(all, v.page);
    PageNonEmptyIffWithinCount(all, v.page);
    EveryRowOnSomePage(all);
  }

  // ----- parseUrl -----

  /** `parseUrl`: an empty URL and a URL `filter_var` rejects are answered before anything is
      fetched; otherwise the parser's result is passed on when it found a title. */
  function ParseUrl(params: Params, validUrl: string -> bool, split: string -> MovieParser.UrlParts,
                    fetch: string -> Option<MovieParser.Document>): (r: Response)
    ensures var url := Input(params, "url");
      && (!Given(url) ==> r == Failure(UrlRequiredMessage))
      && (Given(url) && !validUrl(url.value) ==> r == Failure(UrlInvalidMessage))
      && (r.Parsed? <==> Given(url) && validUrl(url.value) && MovieParser.Parse(fetch(url.value), split(url.value)).success)
      && (r.Parsed? ==>
            var p := MovieParser.Parse(fetch(url.value), split(url.value));
            r == Parsed(p.title, p.description, p.posterUrl) && Truthy(r.title))
      && (!r.Parsed? ==> r.Failure?)
  {
    var url := Input(params, "url");
    if !Given(url) then Failure(UrlRequiredMessage)
    else if !validUrl(url.value) then Failure(UrlInvalidMessage)
    else
      var result := MovieParser.Parse(fetch(url.value), split(url.value));
      if result.success then Parsed(result.title, result.description, result.posterUrl)
      else Failure(NotParsedMessage)
  }

  /** A URL that is missing or malformed gets the same answer whatever the network would have
      returned: it is never fetched. */
  lemma RejectedUrlIsNotFetched(params: Params, validUrl: string -> bool, split: string -> MovieParser.UrlParts,
                                fetch1: string -> Option<MovieParser.Document>,
                                fetch2: string -> Option<MovieParser.Document>)
    requires !Given(Input(params, "url")) || !validUrl(Input(params, "url").value)
    ensures ParseUrl(params, validUrl, split, fetch1) == ParseUrl(params, validUrl, split, fetch2)
  {
  }

  /** A page that cannot be fetched is reported as unparsable. */
  lemma UnreachablePageNotParsed(params: Params, validUrl: string -> bool, split: string -> MovieParser.UrlParts,
                                 fetch: string -> Option<MovieParser.Document>)
    requires Given(Input(params, "url")) && validUrl(Input(params, "url").value)
    requires fetch(Input(params, "url").value).None?
    ensures ParseUrl(params, validUrl, split, fetch) == Failure(NotParsedMessage)
  {
  }

  // ----- store -----

  /** A URL the add and edit forms accept: one `filter_var` validates, or a path under the
      video directory. */
  predicate UrlAccepted(url: string, validUrl: string -> bool) {
    validUrl(url) || StartsWith(url, VideosPrefix)
  }

  /** Every stored movie's URL is one the forms accept. */
  ghost predicate AllUrlsAccepted(t: MovieModel.Table, validUrl: string -> bool) {
    forall i :: 0 <= i < |t| ==> UrlAccepted(t[i].url, validUrl)
  }

  lemma AppendKeepsUrlsAccepted(t: MovieModel.Table, row: MovieModel.Movie, validUrl: string -> bool)
    ensures AllUrlsAccepted(t, validUrl) && UrlAccepted(row.url, validUrl) ==> AllUrlsAccepted(t + [row], validUrl)
  {
    assert forall i :: 0 <= i < |t| ==> (t + [row])[i] == t[i];
  }

  /** An uploaded video: the client's file name, the `uniqid()` the server picked, and whether
      moving the file into place worked. */
  datatype Upload = Upload(originalName: string, uniqueId: string, moved: bool)

  /** `uniqid() . '.' . $fileExt`: the name the video is stored under. */
  function StoredName(u: Upload): string {
    u.uniqueId + "." + Extension(u.originalName)
  }

  /** The URL the upload is served under. */
  function UploadUrl(u: Upload): (url: string)
    ensures StartsWith(url, VideosPrefix)
  {
    var url := VideosPrefix + StoredName(u);
    assert url[..|VideosPrefix|] == VideosPrefix;
    url
  }

  /** The stored name holds no slash when the unique id holds none. */
  lemma StoredNameIsOneName(u: Upload)
    requires '/' !in u.uniqueId
    ensures StoredName(u) != "" && '/' !in StoredName(u)
    ensures StoredName(u) == u.uniqueId + ['.'] + Extension(u.originalName)
  {
    var ext := Extension(u.originalName);
    assert '/' !in ext;
    JoinedHasNo(u.uniqueId, '.', ext, '/');
  }

  /** Joining two pieces without `c` by a character other than `c` gives a piece without `c`. */
  lemma JoinedHasNo(a: string, sep: char, b: string, c: char)
    requires c !in a && c !in b && sep != c
    ensures c !in a + [sep] + b
  {
    var s := a + [sep] + b;
    assert forall k :: 0 <= k < |a| ==> s[k] == a[k];
    assert forall k :: |a| < k < |s| ==> s[k] == b[k - |a| - 1];
  }

  /** The served file is the stored name and keeps the uploaded file's extension. */
  lemma UploadKeepsExtension(u: Upload)
    requires '/' !in u.uniqueId
    ensures BaseName(UploadUrl(u)) == StoredName(u)
    ensures Extension(UploadUrl(u)) == Extension(u.originalName)
  {
    UploadBaseName(u);
    StoredNameExtension(u);
  }

  lemma UploadBaseName(u: Upload)
    requires '/' !in u.uniqueId
    ensures BaseName(UploadUrl(u)) == StoredName(u)
  {
    var name := StoredName(u);
    StoredNameIsOneName(u);
    VideosPrefixSplit();
    assert UploadUrl(u) == VideosPrefix + name;
    BaseNameOfChild("/videos", name);
  }

  /** The video prefix is the videos directory followed by one slash. */
  lemma VideosPrefixSplit()
    ensures VideosPrefix == "/videos" + ['/']
  {
  }

  lemma StoredNameExtension(u: Upload)
    requires '/' !in u.uniqueId
    ensures '.' in StoredName(u) && AfterLast(StoredName(u), '.') == Extension(u.originalName)
  {
    var name := StoredName(u);
    StoredNameIsOneName(u);
    assert name[|u.uniqueId|] == '.';
    AfterLastSeparator(u.uniqueId, '.', Extension(u.originalName));
  }

  /** The result of an action that may write the movies table; `removed` is the path under the
      public directory of a video file deleted with its movie. */
  datatype Outcome = Outcome(response: Response, movies: MovieModel.Table, removed: Option<string>)

  /** The title, URL and the array `store` hands to `Movie::create`, from the form or the
      upload. */
  function StoreInput(userId: int, params: Params, upload: Option<Upload>): (m: MovieModel.NewMovie)
    ensures upload.Some? ==> m.title == FileName(upload.value.originalName) && m.url == UploadUrl(upload.value)
    ensures upload.None? ==> m.title == Trim(InputOr(params, "title", "")) && m.url == Trim(InputOr(params, "url", ""))
    ensures m.userId == userId
    ensures m.description == Some(Trim(InputOr(params, "description", "")))
    ensures m.posterUrl == Some(Trim(InputOr(params, "poster_url", "")))
    ensures m.category == Some(Trim(InputOr(params, "category", MovieModel.Uncategorized)))
  {
    var title := if upload.Some? then FileName(upload.value.originalName) else Trim(InputOr(params, "title", ""));
    var url := if upload.Some? then UploadUrl(upload.value) else Trim(InputOr(params, "url", ""));
    MovieModel.NewMovie(
      userId, title, url,
      Some(Trim(InputOr(params, "description", ""))),
      Some(Trim(InputOr(params, "poster_url", ""))),
      Some(Trim(InputOr(params, "category", MovieModel.Uncategorized))))
  }

  /** The checks `store` makes before inserting, as the error they produce, if any. */
  function StoreCheck(params: Params, upload: Option<Upload>, validUrl: string -> bool): (r: Option<string>)
    ensures upload.Some? ==> (r.None? <==> upload.value.moved)
    ensures upload.None? ==>
      var title := Trim(InputOr(params, "title", ""));
      var url := Trim(InputOr(params, "url", ""));
      r.None? <==> Truthy(title) && Truthy(url) && UrlAccepted(url, validUrl)
    ensures r == Some(UploadFailedMessage) <==> upload.Some? && !upload.value.moved
    ensures r == Some(FieldsRequiredMessage) <==>
      upload.None? && (!Truthy(Trim(InputOr(params, "title", ""))) || !Truthy(Trim(InputOr(params, "url", ""))))
    ensures var title := Trim(InputOr(params, "title", ""));
      var url := Trim(InputOr(params, "url", ""));
      r == Some(UrlInvalidMessage) <==> upload.None? && Truthy(title) && Truthy(url) && !UrlAccepted(url, validUrl)
  {
    match upload
    case Some(u) => if u.moved then None else Some(UploadFailedMessage)
    case None =>
      var title := Trim(InputOr(params, "title", ""));
      var url := Trim(InputOr(params, "url", ""));
      if !Truthy(title) || !Truthy(url) then Some(FieldsRequiredMessage)
      else if !UrlAccepted(url, validUrl) then Some(UrlInvalidMessage)
      else None
  }

  /** `store`: an upload becomes a movie titled after the file and served from the video
      directory; without one the title and URL must be given and the URL accepted. A movie is
      added exactly when the checks pass and the insert does not throw. */
  function Store(t: MovieModel.Table, userId: int, params: Params, upload: Option<Upload>,
                 validUrl: string -> bool, newId: int, now: int, storeFails: bool): (o: Outcome)
    ensures o.removed.None?
    ensures o.response.Success? <==> StoreCheck(params, upload, validUrl).None? && !storeFails
    ensures o.response.Success? ==>
              && o.response == Success(StoredMessage, Some(MoviesPath))
              && o.movies == MovieModel.Create(t, StoreInput(userId, params, upload), newId, now)
              && UrlAccepted(o.movies[|t|].url, validUrl)
    ensures !o.response.Success? ==> o.movies == t && o.response.Failure?
    ensures StoreCheck(params, upload, validUrl).Some? ==>
              o.response == Failure(StoreCheck(params, upload, validUrl).value)
    ensures o.response == Failure(StoreFailedMessage) <==> StoreCheck(params, upload, validUrl).None? && storeFails
    ensures AllUrlsAccepted(t, validUrl) ==> AllUrlsAccepted(o.movies, validUrl)
  {
    match StoreCheck(params, upload, validUrl)
    case Some(message) => Outcome(Failure(message), t, None)
    case None =>
      if storeFails then Outcome(Failure(StoreFailedMessage), t, None)
      else
        var input := StoreInput(userId, params, upload);
        var r := MovieModel.Create(t, input, newId, now);
        assert r[|t|].url == input.url;
        AppendKeepsUrlsAccepted(t, r[|t|], validUrl);
        Outcome(Success(StoredMessage, Some(MoviesPath)), r, None)
  }

  /** A form without an upload is refused when the title or the URL trims to nothing, before
      the URL itself is looked at. */
  lemma BlankFieldsRefused(t: MovieModel.Table, userId: int, params: Params, validUrl: string -> bool,
                           newId: int, now: int, storeFails: bool)
    requires !Truthy(Trim(InputOr(params, "title", ""))) || !Truthy(Trim(InputOr(params, "url", "")))
    ensures Store(t, userId, params, None, validUrl, newId, now, storeFails)
            == Outcome(Failure(FieldsRequiredMessage), t, None)
  {
  }

  // ----- edit / play -----

  /** A page about one movie: the template and the movie passed to it as `movie`, or the
      `errors/404` page. */
  datatype MoviePage = MovieView(template: string, movie: MovieModel.Movie) | NotFound

  /** `edit`: the edit form, given the movie `find($id)` returns, when that movie exists and
      belongs to the user; the 404 page otherwise. Ownership alone decides: an owned movie
      always exists. */
  function EditPage(t: MovieModel.Table, userId: int, id: int): (r: MoviePage)
    ensures r.MovieView? <==> MovieModel.BelongsToUser(t, id, userId)
    ensures r.MovieView? ==> r.template == "movies/edit" && MovieModel.Find(t, id) == Some(r.movie)
  {
    match MovieModel.Find(t, id)
    case None => NotFound
    case Some(m) => if MovieModel.BelongsToUser(t, id, userId) then MovieView("movies/edit", m) else NotFound
  }

  /** With ids unique, as the primary key keeps them, the edit form shows the user's own movie
      with the requested id. */
  lemma EditPageShowsOwnMovie(t: MovieModel.Table, userId: int, id: int)
    requires MovieModel.UniqueIds(t)
    ensures var r := EditPage(t, userId, id);
      r.MovieView? ==> r.movie in t && r.movie.id == id && r.movie.userId == userId
  {
    var r := EditPage(t, userId, id);
    if r.MovieView? {
      var j :| 0 <= j < |t| && MovieModel.IsOwned(t[j], id, userId);
      var k :| 0 <= k < |t| && t[k] == r.movie;
      assert t[k].id == id;
      assert j == k;
    }
  }

  /** `play`: any existing movie plays, whoever owns it, and the view is given that movie; a
      missing one is the 404 page. */
  function PlayPage(t: MovieModel.Table, id: int): (r: MoviePage)
    ensures r.MovieView? <==> exists i :: 0 <= i < |t| && t[i].id == id
    ensures r.MovieView? ==> r.template == "movies/play" && MovieModel.Find(t, id) == Some(r.movie)
  {
    match MovieModel.Find(t, id)
    case None => NotFound
    case Some(m) => MovieView("movies/play", m)
  }

  // ----- update -----

  /** The array `update` hands to `Movie::update`, in the order the action builds it. */
  function EditForm(params: Params): seq<(string, string)> {
    FormOf(Trim(InputOr(params, "title", "")), Trim(InputOr(params, "url", "")),
           Trim(InputOr(params, "description", "")), Trim(InputOr(params, "poster_url", "")),
           Trim(InputOr(params, "category", MovieModel.Uncategorized)))
  }

  function FormOf(title: string, url: string, description: string, posterUrl: string, category: string)
    : seq<(string, string)>
  {
    [("title", title), ("url", url), ("description", description), ("poster_url", posterUrl), ("category", category)]
  }

  lemma FormWhitelisted(title: string, url: string, description: string, posterUrl: string, category: string)
    ensures Sql.Whitelisted(FormOf(title, url, description, posterUrl, category), MovieModel.Columns)
            == FormOf(title, url, description, posterUrl, category)
  {
    var form := FormOf(title, url, description, posterUrl, category);
    assert forall i :: 0 <= i < |form| ==> form[i].0 in MovieModel.Columns;
    Sql.WhitelistedAll(form, MovieModel.Columns);
  }

  /** Each key of the edit form occurs once, so the value written for it is the value given. */
  lemma FormValues(title: string, url: string, description: string, posterUrl: string, category: string)
    ensures var form := FormOf(title, url, description, posterUrl, category);
      && Sql.LastValue(form, "title") == Some(title)
      && Sql.LastValue(form, "url") == Some(url)
      && Sql.LastValue(form, "description") == Some(description)
      && Sql.LastValue(form, "poster_url") == Some(posterUrl)
      && Sql.LastValue(form, "category") == Some(category)
  {
    var form := FormOf(title, url, description, posterUrl, category);
    assert |form[0].0| == 5 && |form[1].0| == 3 && |form[2].0| == 11 && |form[3].0| == 10 && |form[4].0| == 8;
    Sql.LastValueAt(form, "title", 0);
    Sql.LastValueAt(form, "url", 1);
    Sql.LastValueAt(form, "description", 2);
    Sql.LastValueAt(form, "poster_url", 3);
    Sql.LastValueAt(form, "category", 4);
  }

  /** `update`: only the owner may edit; then title and URL must be given and the URL
      accepted; then all five fields are written. */
  function Update(t: MovieModel.Table, userId: int, id: int, params: Params, validUrl: string -> bool,
                  now: int, storeFails: bool): (o: Outcome)
    ensures o.removed.None?
    ensures !MovieModel.BelongsToUser(t, id, userId) ==> o == Outcome(Failure(ForbiddenMessage), t, None)
    ensures var title := Trim(InputOr(params, "title", ""));
      var url := Trim(InputOr(params, "url", ""));
      o.response.Success? <==>
        && MovieModel.BelongsToUser(t, id, userId)
        && Truthy(title) && Truthy(url) && UrlAccepted(url, validUrl)
        && !storeFails
    ensures o.response.Success? ==>
              && o.response == Success(UpdatedMessage, Some(MoviesPath))
              && o.movies == MovieModel.Update(t, id, EditForm(params), now).1
    ensures !o.response.Success? ==> o.movies == t && o.response.Failure?
    ensures var title := Trim(InputOr(params, "title", ""));
      var url := Trim(InputOr(params, "url", ""));
      o.response == Failure(FieldsRequiredMessage) <==>
        MovieModel.BelongsToUser(t, id, userId) && (!Truthy(title) || !Truthy(url))
    ensures var title := Trim(InputOr(params, "title", ""));
      var url := Trim(InputOr(params, "url", ""));
      o.response == Failure(UrlInvalidMessage) <==>
        MovieModel.BelongsToUser(t, id, userId) && Truthy(title) && Truthy(url) && !UrlAccepted(url, validUrl)
    ensures var title := Trim(InputOr(params, "title", ""));
      var url := Trim(InputOr(params, "url", ""));
      o.response == Failure(UpdateFailedMessage) <==>
        MovieModel.BelongsToUser(t, id, userId) && Truthy(title) && Truthy(url) && UrlAccepted(url, validUrl)
        && storeFails
  {
    if !MovieModel.BelongsToUser(t, id, userId) then Outcome(Failure(ForbiddenMessage), t, None)
    else
      var title := Trim(InputOr(params, "title", ""));
      var url := Trim(InputOr(params, "url", ""));
      if !Truthy(title) || !Truthy(url) then Outcome(Failure(FieldsRequiredMessage), t, None)
      else if !UrlAccepted(url, validUrl) then Outcome(Failure(UrlInvalidMessage), t, None)
      else if storeFails then Outcome(Failure(UpdateFailedMessage), t, None)
      else Outcome(Success(UpdatedMessage, Some(MoviesPath)), MovieModel.Update(t, id, EditForm(params), now).1, None)
  }

  /** A successful edit stores all five trimmed fields in the edited movie, a missing
      description or poster URL as the empty string, and stamps it with the time of the edit;
      it keeps every stored URL one the forms accept. */
  lemma UpdateStoresForm(t: MovieModel.Table, userId: int, id: int, params: Params, validUrl: string -> bool,
                         now: int, storeFails: bool)
    requires Update(t, userId, id, params, validUrl, now, storeFails).response.Success?
    ensures var o := Update(t, userId, id, params, validUrl, now, storeFails);
      && |o.movies| == |t|
      && (forall i :: 0 <= i < |t| && t[i].id == id ==>
            && o.movies[i].title == Trim(InputOr(params, "title", ""))
            && o.movies[i].url == Trim(InputOr(params, "url", ""))
            && o.movies[i].description == Some(Trim(InputOr(params, "description", "")))
            && o.movies[i].posterUrl == Some(Trim(InputOr(params, "poster_url", "")))
            && o.movies[i].category == Trim(InputOr(params, "category", MovieModel.Uncategorized))
            && o.movies[i].userId == t[i].userId
            && o.movies[i].createdAt == t[i].createdAt
            && o.movies[i].updatedAt == now)
      && (forall i :: 0 <= i < |t| && t[i].id != id ==> o.movies[i] == t[i])
      && (AllUrlsAccepted(t, validUrl) ==> AllUrlsAccepted(o.movies, validUrl))
  {
    var form := EditForm(params);
    var title, url, description, posterUrl, category := form[0].1, form[1].1, form[2].1, form[3].1, form[4].1;
    assert title == Trim(InputOr(params, "title", "")) && url == Trim(InputOr(params, "url", ""));
    assert description == Trim(InputOr(params, "description", ""));
    assert posterUrl == Trim(InputOr(params, "poster_url", ""));
    assert category == Trim(InputOr(params, "category", MovieModel.Uncategorized));
    assert UrlAccepted(url, validUrl);
    FormWhitelisted(title, url, description, posterUrl, category);
    FormValues(title, url, description, posterUrl, category);
    EditedTable(t, id, form, now, title, url, description, posterUrl, category, validUrl);
  }

  /** The table after writing a form that sets each of the five columns once. */
  lemma EditedTable(t: MovieModel.Table, id: int, form: seq<(string, string)>, now: int,
                    title: string, url: string, description: string, posterUrl: string, category: string,
                    validUrl: string -> bool)
    requires Sql.Whitelisted(form, MovieModel.Columns) == form
    requires Sql.LastValue(form, "title") == Some(title)
    requires Sql.LastValue(form, "url") == Some(url)
    requires Sql.LastValue(form, "description") == Some(description)
    requires Sql.LastValue(form, "poster_url") == Some(posterUrl)
    requires Sql.LastValue(form, "category") == Some(category)
    ensures var r := MovieModel.Update(t, id, form, now).1;
      && |r| == |t|
      && (forall i :: 0 <= i < |t| && t[i].id == id ==>
            && r[i].title == title && r[i].url == url && r[i].category == category
            && r[i].description == Some(description) && r[i].posterUrl == Some(posterUrl)
            && r[i].userId == t[i].userId && r[i].createdAt == t[i].createdAt && r[i].updatedAt == now)
      && (forall i :: 0 <= i < |t| && t[i].id != id ==> r[i] == t[i])
      && (AllUrlsAccepted(t, validUrl) && UrlAccepted(url, validUrl) ==> AllUrlsAccepted(r, validUrl))
  {
    var r := MovieModel.Update(t, id, form, now).1;
    forall i | 0 <= i < |t|
      ensures t[i].id == id ==>
        && r[i].title == title && r[i].url == url && r[i].category == category
        && r[i].description == Some(description) && r[i].posterUrl == Some(posterUrl)
        && r[i].userId == t[i].userId && r[i].createdAt == t[i].createdAt && r[i].updatedAt == now
      ensures t[i].id != id ==> r[i] == t[i]
    {
      EditedRow(t, id, form, now, title, url, description, posterUrl, category, i);
    }
    if AllUrlsAccepted(t, validUrl) && UrlAccepted(url, validUrl) {
      forall i | 0 <= i < |r| ensures UrlAccepted(r[i].url, validUrl) {
        EditedRow(t, id, form, now, title, url, description, posterUrl, category, i);
      }
    }
  }

  /** One row of `EditedTable`. */
  lemma EditedRow(t: MovieModel.Table, id: int, form: seq<(string, string)>, now: int,
                  title: string, url: string, description: string, posterUrl: string, category: string, i: int)
    requires 0 <= i < |t|
    requires Sql.Whitelisted(form, MovieModel.Columns) == form
    requires Sql.LastValue(form, "title") == Some(title)
    requires Sql.LastValue(form, "url") == Some(url)
    requires Sql.LastValue(form, "description") == Some(description)
    requires Sql.LastValue(form, "poster_url") == Some(posterUrl)
    requires Sql.LastValue(form, "category") == Some(category)
    ensures var r := MovieModel.Update(t, id, form, now).1;
      && (t[i].id == id ==>
            && r[i].title == title && r[i].url == url && r[i].category == category
            && r[i].description == Some(description) && r[i].posterUrl == Some(posterUrl)
            && r[i].userId == t[i].userId && r[i].createdAt == t[i].createdAt && r[i].updatedAt == now)
      && (t[i].id != id ==> r[i] == t[i])
  {
    MovieModel.UpdateChangesOnlyWhitelisted(t, id, form, now, i);
  }

  /** Editing a movie of another user, or one that does not exist, changes nothing whatever
      the form holds. */
  lemma UpdateOthersForbidden(t: MovieModel.Table, userId: int, id: int, params: Params,
                              validUrl: string -> bool, now: int, storeFails: bool)
    requires forall i :: 0 <= i < |t| ==> !(t[i].id == id && t[i].userId == userId)
    ensures Update(t, userId, id, params, validUrl, now, storeFails) == Outcome(Failure(ForbiddenMessage), t, None)
  {
  }

  // ----- delete -----

  /** `delete`: only the owner may delete; the row goes, and when the movie (as `find` returns
      it) was an uploaded video, its file is removed too. */
  function Delete(t: MovieModel.Table, userId: int, id: int, storeFails: bool): (o: Outcome)
    ensures !MovieModel.BelongsToUser(t, id, userId) ==> o == Outcome(Failure(ForbiddenMessage), t, None)
    ensures o.response.Success? <==> MovieModel.BelongsToUser(t, id, userId) && !storeFails
    ensures o.response.Success? ==>
              && o.response == Success(DeletedMessage, None)
              && o.movies == MovieModel.Delete(t, id, userId)
              && !MovieModel.BelongsToUser(o.movies, id, userId)
    ensures !o.response.Success? ==> o.movies == t && o.removed.None? && o.response.Failure?
    ensures o.response == Failure(DeleteFailedMessage) <==> MovieModel.BelongsToUser(t, id, userId) && storeFails
    ensures o.removed.Some? ==> StartsWith(o.removed.value, VideosPrefix)
    ensures o.removed.Some? <==>
              o.response.Success? && MovieModel.Find(t, id).Some? && StartsWith(MovieModel.Find(t, id).value.url, VideosPrefix)
  {
    if !MovieModel.BelongsToUser(t, id, userId) then Outcome(Failure(ForbiddenMessage), t, None)
    else if storeFails then Outcome(Failure(DeleteFailedMessage), t, None)
    else
      var movie := MovieModel.Find(t, id);
      var removed := if movie.Some? && StartsWith(movie.value.url, VideosPrefix) then Some(movie.value.url) else None;
      Outcome(Success(DeletedMessage, None), MovieModel.Delete(t, id, userId), removed)
  }

  /** The file `delete` removes is the stored URL itself, tested only for its `/videos/`
      prefix. A URL with a parent segment, such as `/videos/../x`, passes the form check
      whatever `filter_var` says, and deleting its movie names a file outside the videos
      directory. */
  lemma DeleteFollowsParentSegments(validUrl: string -> bool)
    ensures var m := MovieModel.Movie(1, 1, "x", "/videos/../x", None, None, "x", 0, 0);
      && UrlAccepted(m.url, validUrl)
      && Delete([m], 1, 1, false).removed == Some("/videos/../x")
  {
    assert "/videos/../x"[..|VideosPrefix|] == VideosPrefix;
  }

  /** Deleting keeps every stored URL one the forms accept. */
  lemma DeleteKeepsUrlsAccepted(t: MovieModel.Table, userId: int, id: int, storeFails: bool, validUrl: string -> bool)
    requires AllUrlsAccepted(t, validUrl)
    ensures AllUrlsAccepted(Delete(t, userId, id, storeFails).movies, validUrl)
  {
    var r := Delete(t, userId, id, storeFails).movies;
    forall i | 0 <= i < |r| ensures UrlAccepted(r[i].url, validUrl) {
      var j :| 0 <= j < |t| && t[j] == r[i];
    }
  }
}

=== FILE: movie_model.dfy ===
/** The `movies` repository (`app/model/Movie.php`) as an in-memory table.

    The table is the sequence of its rows. Each static method of the source is a
    filter, sort, slice or rewrite of that sequence. The engine's own choices
    come in as parameters: the id `lastInsertId` reports, the timestamp
    `datetime("now")` yields, and the `LIKE` test `search` uses. */
module MovieModel {
  import opened Common
  import opened Php
  import Sql

  /** The category a movie gets when none is given ("uncategorised"). */
  const Uncategorized := "未分类"

  /** A row of the `movies` table. Timestamps are seconds; `datetime("now")` text sorts the same. */
  datatype Movie = Movie(
    id: int,
    userId: int,
    title: string,
    url: string,
    description: Option<string>,
    posterUrl: Option<string>,
    category: string,
    createdAt: int,
    updatedAt: int)

  type Table = seq<Movie>

  // ----- find -----

  function HasId(id: int): Movie -> bool {
    (m: Movie) => m.id == id
  }

  /** `find($id)`: the row with that id, or null when there is none. */
  function Find(t: Table, id: int): (r: Option<Movie>)
    ensures r.None? <==> forall i :: 0 <= i < |t| ==> t[i].id != id
    ensures r.Some? ==> r.value.id == id && r.value in t
  {
    match FindFirst(t, HasId(id))
    case Some(i) => Some(t[i])
    case None => None
  }

  // ----- ORDER BY created_at DESC -----

  ghost predicate NewestFirstOrder(rows: seq<Movie>) {
    forall i, j :: 0 <= i < j < |rows| ==> rows[i].createdAt >= rows[j].createdAt
  }

  /** Puts `m` before the first row that is not newer than it. */
  function InsertByAge(m: Movie, sorted: seq<Movie>): (r: seq<Movie>)
    ensures multiset(r) == multiset(sorted) + multiset{m}
    ensures |r| == |sorted| + 1
    ensures r[0] == m || (|sorted| > 0 && r[0] == sorted[0])
  {
    if |sorted| == 0 then [m]
    else if m.createdAt >= sorted[0].createdAt then [m] + sorted
    else
      assert sorted == [sorted[0]] + sorted[1..];
      [sorted[0]] + InsertByAge(m, sorted[1..])
  }

  lemma {:induction false} InsertByAgeKeepsOrder(m: Movie, sorted: seq<Movie>)
    requires NewestFirstOrder(sorted)
    ensures NewestFirstOrder(InsertByAge(m, sorted))
  {
    if |sorted| > 0 && m.createdAt < sorted[0].createdAt {
      var rest := InsertByAge(m, sorted[1..]);
      InsertByAgeKeepsOrder(m, sorted[1..]);
      assert rest[0].createdAt <= sorted[0].createdAt;
      assert InsertByAge(m, sorted) == [sorted[0]] + rest;
    }
  }

  lemma NewestFirstKeepsRows(rows: seq<Movie>)
    ensures forall i :: 0 <= i < |NewestFirst(rows)| ==> NewestFirst(rows)[i] in rows
  {
    var r := NewestFirst(rows);
    forall i | 0 <= i < |r| ensures r[i] in rows {
      assert r[i] in multiset(r);
    }
  }

  /** `ORDER BY created_at DESC`: the same rows, newest first. SQL leaves the order of rows
      with equal timestamps open; this model fixes one. */
  function NewestFirst(rows: seq<Movie>): (r: seq<Movie>)
    ensures NewestFirstOrder(r)
    ensures multiset(r) == multiset(rows)
    ensures |r| == |rows|
  {
    if |rows| == 0 then []
    else
      assert rows == [rows[0]] + rows[1..];
      InsertByAgeKeepsOrder(rows[0], NewestFirst(rows[1..]));
      InsertByAge(rows[0], NewestFirst(rows[1..]))
  }

  // ----- findByUserId / countByUserId -----

  /** The `WHERE` of `findByUserId` and `countByUserId`: the user's rows, and only those of the
      given category when that category is truthy (`""`, `"0"` and null list every category). */
  predicate IsListed(m: Movie, userId: int, category: Option<string>) {
    m.userId == userId && (category.Some? && Truthy(category.value) ==> m.category == category.value)
  }

  function ListedBy(userId: int, category: Option<string>): Movie -> bool {
    (m: Movie) => IsListed(m, userId, category)
  }

  /** The unpaged result of `findByUserId`: every listed row, newest first. */
  function Listing(t: Table, userId: int, category: Option<string>): (r: seq<Movie>)
    ensures NewestFirstOrder(r)
    ensures forall i :: 0 <= i < |r| ==> IsListed(r[i], userId, category) && r[i] in t
    ensures forall i :: 0 <= i < |t| && IsListed(t[i], userId, category) ==> t[i] in r
  {
    var r := NewestFirstWhere(t, ListedBy(userId, category));
    assert forall i :: 0 <= i < |r| ==> ListedBy(userId, category)(r[i]);
    r
  }

  /** The rows satisfying `p`, newest first: a `WHERE` followed by `ORDER BY created_at DESC`. */
  function NewestFirstWhere(t: Table, p: Movie -> bool): (r: seq<Movie>)
    ensures NewestFirstOrder(r)
    ensures forall i :: 0 <= i < |r| ==> p(r[i]) && r[i] in t
    ensures forall i :: 0 <= i < |t| && p(t[i]) ==> t[i] in r
    ensures multiset(r) == multiset(Filter(t, p))
  {
    var rows := Filter(t, p);
    var r := NewestFirst(rows);
    SameMembers(r, rows);
    forall i | 0 <= i < |r| ensures p(r[i]) && r[i] in t {
      assert r[i] in rows;
      var j :| 0 <= j < |rows| && rows[j] == r[i];
    }
    r
  }

  /** `findByUserId($userId, $page, $perPage, $category)`: page `page` of the listing, skipping
      `(page - 1) * perPage` rows and keeping at most `perPage`. */
  function FindByUserId(t: Table, userId: int, page: int, perPage: int, category: Option<string>): (r: seq<Movie>)
    ensures forall i :: 0 <= i < |r| ==> IsListed(r[i], userId, category) && r[i] in t
    ensures NewestFirstOrder(r)
    ensures perPage >= 0 ==> |r| <= perPage
    ensures (page - 1) * perPage >= CountByUserId(t, userId, category) ==> r == []
  {
    var all := Listing(t, userId, category);
    CountMatchesListing(t, userId, category);
    var r := Sql.LimitOffset(all, perPage, (page - 1) * perPage);
    WindowOfNewestFirst(all, perPage, (page - 1) * perPage);
    r
  }

  /** A window of rows sorted newest first is sorted newest first and holds only those rows. */
  lemma WindowOfNewestFirst(rows: seq<Movie>, limit: int, offset: int)
    requires NewestFirstOrder(rows)
    ensures var r := Sql.LimitOffset(rows, limit, offset);
      NewestFirstOrder(r) && forall i :: 0 <= i < |r| ==> r[i] in rows
  {
    var r := Sql.LimitOffset(rows, limit, offset);
    var start := if offset < 0 then 0 else offset;
    if start < |rows| {
      assert forall i :: 0 <= i < |r| ==> r[i] == rows[start + i];
    }
  }

  /** `countByUserId($userId, $category)`: how many rows the same filter admits. */
  function CountByUserId(t: Table, userId: int, category: Option<string>): (n: nat)
    ensures n <= |t|
    ensures n == 0 <==> forall i :: 0 <= i < |t| ==> !IsListed(t[i], userId, category)
  {
    CountWhere(t, ListedBy(userId, category))
  }

  /** The count is the size of the unpaged listing: both use the same filter. */
  lemma CountMatchesListing(t: Table, userId: int, category: Option<string>)
    ensures CountByUserId(t, userId, category) == |Listing(t, userId, category)|
  {
    CountIsFilterSize(t, ListedBy(userId, category));
  }

  /** Page `page` of the listing starts `(page - 1) * perPage` rows in and runs for `perPage`
      rows or to the end of the listing, whichever comes first; past the end it is empty. */
  lemma FindByUserIdIsWindow(t: Table, userId: int, page: int, perPage: int, category: Option<string>)
    requires page >= 1 && perPage >= 0
    ensures 0 <= (page - 1) * perPage
    ensures var all := Listing(t, userId, category);
      var start := (page - 1) * perPage;
      var end := if start + perPage < |all| then start + perPage else |all|;
      FindByUserId(t, userId, page, perPage, category) == if start < |all| then all[start..end] else []
  {
    Sql.LimitOffsetPage(Listing(t, userId, category), page, perPage);
  }

  // ----- search -----

  /** `WHERE ... ORDER BY` returns each row that passes the filter as many times as the table
      holds it, and no other row. */
  lemma NewestFirstWhereMultiplicity(t: Table, p: Movie -> bool, m: Movie)
    ensures multiset(NewestFirstWhere(t, p))[m] == if p(m) then multiset(t)[m] else 0
  {
    FilterMultiplicity(t, p, m);
  }

  /** The `WHERE` of `search`: the user's rows whose title or (non-null) description is
      `LIKE` the pattern. */
  predicate IsHit(m: Movie, userId: int, pattern: string, like: (string, string) -> bool) {
    && m.userId == userId
    && (like(m.title, pattern) || (m.description.Some? && like(m.description.value, pattern)))
  }

  /** `search($userId, $keyword)`: the matching rows, newest first, unpaged. `LIKE` itself is
      the parameter `like`, applied to the pattern `%keyword%`. */
  function Search(t: Table, userId: int, keyword: string, like: (string, string) -> bool): (r: seq<Movie>)
    ensures forall i :: 0 <= i < |r| ==> IsHit(r[i], userId, "%" + keyword + "%", like) && r[i] in t
    ensures forall i :: 0 <= i < |t| && IsHit(t[i], userId, "%" + keyword + "%", like) ==> t[i] in r
    ensures NewestFirstOrder(r)
    ensures forall m :: multiset(r)[m] == if IsHit(m, userId, "%" + keyword + "%", like) then multiset(t)[m] else 0
    ensures |r| == CountWhere(t, (m: Movie) => IsHit(m, userId, "%" + keyword + "%", like))
  {
    var hit := (m: Movie) => IsHit(m, userId, "%" + keyword + "%", like);
    var r := NewestFirstWhere(t, hit);
    assert forall i :: 0 <= i < |r| ==> hit(r[i]);
    forall m ensures multiset(r)[m] == if hit(m) then multiset(t)[m] else 0 {
      NewestFirstWhereMultiplicity(t, hit, m);
    }
    CountIsFilterSize(t, hit);
    r
  }

  // ----- create -----

  /** The array `create` receives; absent keys are `None`. */
  datatype NewMovie = NewMovie(
    userId: int,
    title: string,
    url: string,
    description: Option<string>,
    posterUrl: Option<string>,
    category: Option<string>)

  /** The row `create` inserts: description and poster stay null when absent, the category
      falls back to the default one, both timestamps are the insertion time. */
  function NewRow(input: NewMovie, id: int, now: int): (m: Movie)
    ensures m.id == id && m.userId == input.userId && m.title == input.title && m.url == input.url
    ensures input.category.None? ==> m.category == Uncategorized
    ensures input.category.Some? ==> m.category == input.category.value
    ensures m.description == input.description && m.posterUrl == input.posterUrl
    ensures m.createdAt == now && m.updatedAt == now
  {
    Movie(id, input.userId, input.title, input.url, input.description, input.posterUrl,
          input.category.GetOr(Uncategorized), now, now)
  }

  /** `create($data)`: appends the new row; `id` is the one the engine assigns. */
  function Create(t: Table, input: NewMovie, id: int, now: int): (r: Table)
    ensures |r| == |t| + 1 && r[..|t|] == t && r[|t|] == NewRow(input, id, now)
  {
    t + [NewRow(input, id, now)]
  }

  /** With a fresh id, the created row is found under it and belongs to its user, and every
      row that was found before still is. */
  lemma CreateThenFind(t: Table, input: NewMovie, id: int, now: int)
    requires forall i :: 0 <= i < |t| ==> t[i].id != id
    ensures Find(Create(t, input, id, now), id) == Some(NewRow(input, id, now))
    ensures BelongsToUser(Create(t, input, id, now), id, input.userId)
    ensures forall other :: other != id ==> Find(Create(t, input, id, now), other) == Find(t, other)
  {
    var r := Create(t, input, id, now);
    assert r[|t|].id == id;
    forall other | other != id
      ensures Find(r, other) == Find(t, other)
    {
      FindFirstAppend(t, NewRow(input, id, now), HasId(other));
    }
    FindFirstAppend(t, NewRow(input, id, now), HasId(id));
  }

  /** Appending an element that fails the test does not move the first match, and appending to
      a sequence without matches finds the appended one, if it matches. */
  lemma {:induction false} FindFirstAppend<T>(xs: seq<T>, x: T, p: T -> bool)
    ensures FindFirst(xs + [x], p) == if FindFirst(xs, p).Some? then FindFirst(xs, p)
                                      else if p(x) then Some(|xs|) else None
  {
    if |xs| > 0 {
      assert (xs + [x])[1..] == xs[1..] + [x];
      FindFirstAppend(xs[1..], x, p);
    }
  }

  // ----- update -----

  /** The columns `update` may set. */
  const Columns: set<string> := {"title", "url", "description", "poster_url", "category"}

  /** The statement `update($id, $data)` prepares and the values it binds: one assignment per
      whitelisted key in input order, then `updated_at`, then the id for `WHERE id = ?`. */
  function UpdateStatement(id: int, data: seq<(string, string)>): (s: Sql.Statement)
    ensures Sql.WellBound(s)
    ensures var w := Sql.Whitelisted(data, Columns);
      && |s.params| == |w| + 1
      && s.params[|w|] == Sql.Integer(id)
      && forall i :: 0 <= i < |w| ==> s.params[i] == Sql.Text(w[i].1)
  {
    var w := Sql.Whitelisted(data, Columns);
    var fields := Sql.Assignments(w) + [Sql.TouchUpdatedAt()];
    ColumnsArePlain();
    Sql.SetListPlaceholders(w, []);
    assert Sql.Assignments(w) + [] + [Sql.TouchUpdatedAt()] == fields;
    Sql.UpdateSqlPlaceholders("movies", fields);
    Sql.Statement(Sql.UpdateSql("movies", fields), Sql.Bindings(w) + [Sql.Integer(id)])
  }

  /** The statement text: one `column = ?` per whitelisted pair, in input order, then the
      modification time, then the id condition. The i-th value bound is the i-th pair's, so
      each placeholder receives the value of the column it assigns. */
  lemma UpdateStatementText(id: int, data: seq<(string, string)>)
    ensures var w := Sql.Whitelisted(data, Columns);
      && (forall i :: 0 <= i < |w| ==> Sql.Assignments(w)[i] == w[i].0 + " = ?" && w[i].0 in Columns)
      && UpdateStatement(id, data).sql
         == "UPDATE " + "movies" + " SET "
            + (if w == [] then "" else Sql.Implode(", ", Sql.Assignments(w)) + ", ")
            + "updated_at = datetime('now')" + " WHERE id = ?"
  {
    var w := Sql.Whitelisted(data, Columns);
    assert UpdateStatement(id, data).sql == Sql.UpdateSql("movies", Sql.Assignments(w) + [Sql.TouchUpdatedAt()]);
    Sql.UpdateSqlOfSetList("movies", Sql.Assignments(w));
  }

  lemma ColumnsArePlain()
    ensures forall k :: k in Columns ==> '?' !in k
  {
  }

  /** One `column = value` assignment; a column off the whitelist changes nothing. */
  function Assign(m: Movie, column: string, value: string): Movie {
    if column == "title" then m.(title := value)
    else if column == "url" then m.(url := value)
    else if column == "description" then m.(description := Some(value))
    else if column == "poster_url" then m.(posterUrl := Some(value))
    else if column == "category" then m.(category := value)
    else m
  }

  /** The assignments of a SET list, left to right. */
  function AssignAll(m: Movie, pairs: seq<(string, string)>): Movie
    decreases |pairs|
  {
    if |pairs| == 0 then m
    else Assign(AssignAll(m, pairs[..|pairs| - 1]), pairs[|pairs| - 1].0, pairs[|pairs| - 1].1)
  }

  /** What `UPDATE movies SET ... WHERE id = ?` does to the table. */
  function UpdateRows(t: Table, id: int, data: seq<(string, string)>, now: int): (r: Table)
    ensures |r| == |t|
  {
    var w := Sql.Whitelisted(data, Columns);
    seq(|t|, i requires 0 <= i < |t| => if t[i].id == id then AssignAll(t[i], w).(updatedAt := now) else t[i])
  }

  /** `update($id, $data)`: the statement it runs and the table afterwards. */
  function Update(t: Table, id: int, data: seq<(string, string)>, now: int): (r: (Sql.Statement, Table))
    ensures Sql.WellBound(r.0)
    ensures |r.1| == |t|
  {
    (UpdateStatement(id, data), UpdateRows(t, id, data, now))
  }

  /** Applying a SET list writes, in each whitelisted column, the last value given for it,
      and leaves every other column alone. */
  lemma {:induction false} AssignAllWritesLastValues(m: Movie, pairs: seq<(string, string)>)
    ensures var r := AssignAll(m, pairs);
      && r.id == m.id && r.userId == m.userId && r.createdAt == m.createdAt && r.updatedAt == m.updatedAt
      && r.title == Sql.LastValue(pairs, "title").GetOr(m.title)
      && r.url == Sql.LastValue(pairs, "url").GetOr(m.url)
      && r.category == Sql.LastValue(pairs, "category").GetOr(m.category)
      && r.description == (if Sql.LastValue(pairs, "description").Some? then Sql.LastValue(pairs, "description") else m.description)
      && r.posterUrl == (if Sql.LastValue(pairs, "poster_url").Some? then Sql.LastValue(pairs, "poster_url") else m.posterUrl)
  {
    AssignAllKeepsIdentity(m, pairs);
    AssignAllWritesTexts(m, pairs);
    AssignAllWritesOptionals(m, pairs);
  }

  lemma {:induction false} AssignAllKeepsIdentity(m: Movie, pairs: seq<(string, string)>)
    ensures var r := AssignAll(m, pairs);
      r.id == m.id && r.userId == m.userId && r.createdAt == m.createdAt && r.updatedAt == m.updatedAt
    decreases |pairs|
  {
    if |pairs| > 0 {
      AssignAllKeepsIdentity(m, pairs[..|pairs| - 1]);
    }
  }

  lemma {:induction false} AssignAllWritesTexts(m: Movie, pairs: seq<(string, string)>)
    ensures var r := AssignAll(m, pairs);
      && r.title == Sql.LastValue(pairs, "title").GetOr(m.title)
      && r.url == Sql.LastValue(pairs, "url").GetOr(m.url)
      && r.category == Sql.LastValue(pairs, "category").GetOr(m.category)
    decreases |pairs|
  {
    if |pairs| > 0 {
      AssignAllWritesTexts(m, pairs[..|pairs| - 1]);
    }
  }

  lemma {:induction false} AssignAllWritesOptionals(m: Movie, pairs: seq<(string, string)>)
    ensures var r := AssignAll(m, pairs);
      && r.description == (if Sql.LastValue(pairs, "description").Some? then Sql.LastValue(pairs, "description") else m.description)
      && r.posterUrl == (if Sql.LastValue(pairs, "poster_url").Some? then Sql.LastValue(pairs, "poster_url") else m.posterUrl)
    decreases |pairs|
  {
    if |pairs| > 0 {
      AssignAllWritesOptionals(m, pairs[..|pairs| - 1]);
    }
  }

  /** `update` rewrites only the rows with that id, and in them only the whitelisted columns
      (to the values given for them) and `updated_at`; id, owner and creation time stay. */
  lemma UpdateChangesOnlyWhitelisted(t: Table, id: int, data: seq<(string, string)>, now: int, i: int)
    requires 0 <= i < |t|
    ensures var r := Update(t, id, data, now).1;
      var w := Sql.Whitelisted(data, Columns);
      && (t[i].id != id ==> r[i] == t[i])
      && (t[i].id == id ==>
            && r[i].id == id && r[i].userId == t[i].userId && r[i].createdAt == t[i].createdAt
            && r[i].updatedAt == now
            && r[i].title == Sql.LastValue(w, "title").GetOr(t[i].title)
            && r[i].url == Sql.LastValue(w, "url").GetOr(t[i].url)
            && r[i].category == Sql.LastValue(w, "category").GetOr(t[i].category)
            && r[i].description
               == (if Sql.LastValue(w, "description").Some? then Sql.LastValue(w, "description") else t[i].description)
            && r[i].posterUrl
               == (if Sql.LastValue(w, "poster_url").Some? then Sql.LastValue(w, "poster_url") else t[i].posterUrl))
  {
    AssignAllWritesLastValues(t[i], Sql.Whitelisted(data, Columns));
  }

  /** A key off the whitelist (`user_id`, `id`, `created_at`, anything else) never reaches the
      SET list: the values given under such keys change nothing. */
  lemma UpdateIgnoresOtherKeys(t: Table, id: int, data: seq<(string, string)>, extra: (string, string), now: int)
    requires extra.0 !in Columns
    ensures Update(t, id, data + [extra], now) == Update(t, id, data, now)
  {
    FilterAppend(data, [extra], Sql.KeyIn(Columns));
    assert Sql.Whitelisted([extra], Columns) == [];
    assert Sql.Whitelisted(data + [extra], Columns) == Sql.Whitelisted(data, Columns);
  }

  // ----- delete / belongsToUser -----

  predicate IsOwned(m: Movie, id: int, userId: int) {
    m.id == id && m.userId == userId
  }

  function OwnedBy(id: int, userId: int): Movie -> bool {
    (m: Movie) => IsOwned(m, id, userId)
  }

  /** No two rows share an id: `id` is the table's primary key. */
  ghost predicate UniqueIds(t: Table) {
    forall i, j :: 0 <= i < j < |t| ==> t[i].id != t[j].id
  }

  /** `belongsToUser($id, $userId)`: `COUNT(*) > 0` over the rows with that id and owner. */
  function BelongsToUser(t: Table, id: int, userId: int): (b: bool)
    ensures b <==> exists i :: 0 <= i < |t| && IsOwned(t[i], id, userId)
  {
    CountWhere(t, OwnedBy(id, userId)) > 0
  }

  /** `delete($id, $userId)`: removes the rows with that id AND that owner; every other row
      stays, in its order. */
  function Delete(t: Table, id: int, userId: int): (r: Table)
    ensures forall i :: 0 <= i < |r| ==> !IsOwned(r[i], id, userId) && r[i] in t
    ensures forall i :: 0 <= i < |t| && !IsOwned(t[i], id, userId) ==> t[i] in r
    ensures |r| == |t| - CountWhere(t, OwnedBy(id, userId))
    ensures !BelongsToUser(r, id, userId)
  {
    var keep := (m: Movie) => !IsOwned(m, id, userId);
    var r := Filter(t, keep);
    KeptAndDropped(t, keep, OwnedBy(id, userId));
    r
  }

  /** Deleting someone else's movie, or one that does not exist, changes nothing. */
  lemma DeleteWithoutOwnershipIsNoop(t: Table, id: int, userId: int)
    requires !BelongsToUser(t, id, userId)
    ensures Delete(t, id, userId) == t
  {
    FilterAll(t, (m: Movie) => !IsOwned(m, id, userId));
  }

  // ----- getCategoriesByUserId -----

  /** One row of `SELECT category, COUNT(*) as count ... GROUP BY category`. */
  datatype CategoryCount = CategoryCount(category: string, count: nat)

  ghost predicate StrictlyOrdered(cs: seq<CategoryCount>) {
    forall i, j :: 0 <= i < j < |cs| ==> Sql.Less(cs[i].category, cs[j].category)
  }

  ghost predicate PositiveCounts(cs: seq<CategoryCount>) {
    forall i :: 0 <= i < |cs| ==> cs[i].count > 0
  }

  /** `b` sorts before every category in `cs`. */
  ghost predicate Below(b: string, cs: seq<CategoryCount>) {
    forall i :: 0 <= i < |cs| ==> Sql.Less(b, cs[i].category)
  }

  /** The count listed for category `c`, 0 when it is not listed. */
  function CountOf(cs: seq<CategoryCount>, c: string): nat {
    if |cs| == 0 then 0
    else if cs[0].category == c then cs[0].count
    else CountOf(cs[1..], c)
  }

  /** The sum of the counts. */
  function Total(cs: seq<CategoryCount>): nat {
    if |cs| == 0 then 0 else cs[0].count + Total(cs[1..])
  }

  lemma {:induction false} AbsentWhenBelow(cs: seq<CategoryCount>, c: string)
    requires Below(c, cs)
    ensures CountOf(cs, c) == 0
  {
    if |cs| > 0 {
      Sql.LessIrreflexive(c);
      AbsentWhenBelow(cs[1..], c);
    }
  }

  /** A category sorting before the first of a strictly ordered list sorts before all of it. */
  lemma BelowFirstIsBelowAll(cs: seq<CategoryCount>, c: string)
    requires StrictlyOrdered(cs) && |cs| > 0 && Sql.Less(c, cs[0].category)
    ensures Below(c, cs)
  {
    forall i | 0 < i < |cs| ensures Sql.Less(c, cs[i].category) {
      Sql.LessTransitive(c, cs[0].category, cs[i].category);
    }
  }

  /** Counts one more row of category `c`. */
  function Bump(cs: seq<CategoryCount>, c: string): (r: seq<CategoryCount>)
    requires StrictlyOrdered(cs)
    ensures forall d :: CountOf(r, d) == CountOf(cs, d) + (if d == c then 1 else 0)
    ensures Total(r) == Total(cs) + 1
    ensures PositiveCounts(cs) ==> PositiveCounts(r)
  {
    if |cs| == 0 then [CategoryCount(c, 1)]
    else if cs[0].category == c then [CategoryCount(c, cs[0].count + 1)] + cs[1..]
    else if Sql.Less(c, cs[0].category) then
      BelowFirstIsBelowAll(cs, c);
      AbsentWhenBelow(cs, c);
      [CategoryCount(c, 1)] + cs
    else
      [cs[0]] + Bump(cs[1..], c)
  }

  /** Counting one more row keeps the list strictly ordered, and a category below the list
      and below `c` stays below it. */
  lemma {:induction false} BumpKeepsOrder(cs: seq<CategoryCount>, c: string)
    requires StrictlyOrdered(cs)
    ensures StrictlyOrdered(Bump(cs, c))
    ensures forall b :: Below(b, cs) && Sql.Less(b, c) ==> Below(b, Bump(cs, c))
  {
    var r := Bump(cs, c);
    if |cs| == 0 {
    } else if cs[0].category == c {
      assert forall i :: 0 <= i < |cs| ==> r[i].category == cs[i].category;
    } else if Sql.Less(c, cs[0].category) {
      BelowFirstIsBelowAll(cs, c);
      assert forall i :: 0 < i < |r| ==> r[i] == cs[i - 1];
    } else {
      Sql.LessTotal(c, cs[0].category);
      BumpKeepsOrder(cs[1..], c);
      assert Below(cs[0].category, cs[1..]);
      assert r == [cs[0]] + Bump(cs[1..], c);
    }
  }

  /** `GROUP BY category ORDER BY category` over some rows, counting as it goes. */
  function Tally(rows: seq<Movie>): (r: seq<CategoryCount>)
    ensures StrictlyOrdered(r) && PositiveCounts(r)
    ensures forall d :: CountOf(r, d) == CountWhere(rows, InCategory(d))
    ensures Total(r) == |rows|
  {
    if |rows| == 0 then []
    else
      BumpKeepsOrder(Tally(rows[1..]), rows[0].category);
      Bump(Tally(rows[1..]), rows[0].category)
  }

  function InCategory(c: string): Movie -> bool {
    (m: Movie) => m.category == c
  }

  /** The user's rows in category `c`. */
  function OwnedIn(userId: int, c: string): Movie -> bool {
    (m: Movie) => m.userId == userId && m.category == c
  }

  /** `getCategoriesByUserId($userId)`: one entry per distinct category of the user's movies,
      in collation order, each with its number of movies; the counts add up to the user's
      total. */
  function GetCategoriesByUserId(t: Table, userId: int): (r: seq<CategoryCount>)
    ensures StrictlyOrdered(r) && PositiveCounts(r)
    ensures forall d :: CountOf(r, d) == CountWhere(t, OwnedIn(userId, d))
    ensures Total(r) == CountByUserId(t, userId, None)
  {
    var mine := Filter(t, ListedBy(userId, None));
    var r := Tally(mine);
    forall d ensures CountOf(r, d) == CountWhere(t, OwnedIn(userId, d)) {
      CountFiltered(t, ListedBy(userId, None), InCategory(d), OwnedIn(userId, d));
    }
    CountIsFilterSize(t, ListedBy(userId, None));
    r
  }

  /** Counting the matches of `q` among the matches of `p` counts the matches of both. */
  lemma {:induction false} CountFiltered<T>(xs: seq<T>, p: T -> bool, q: T -> bool, pq: T -> bool)
    requires forall x :: pq(x) == (p(x) && q(x))
    ensures CountWhere(Filter(xs, p), q) == CountWhere(xs, pq)
  {
    if |xs| > 0 {
      CountFiltered(xs[1..], p, q, pq);
      if p(xs[0]) {
        assert Filter(xs, p)[1..] == Filter(xs[1..], p);
      }
    }
  }

  /** The count shown next to a category is the total the listing filtered by that category
      reports. */
  lemma CategoryCountMatchesFilteredTotal(t: Table, userId: int, c: string)
    requires Truthy(c)
    ensures CountOf(GetCategoriesByUserId(t, userId), c) == CountByUserId(t, userId, Some(c))
  {
    CountSameTest(t, OwnedIn(userId, c), ListedBy(userId, Some(c)));
  }

  lemma {:induction false} CountSameTest<T>(xs: seq<T>, p: T -> bool, q: T -> bool)
    requires forall x :: p(x) == q(x)
    ensures CountWhere(xs, p) == CountWhere(xs, q)
  {
    if |xs| > 0 {
      CountSameTest(xs[1..], p, q);
    }
  }

  /** A category is listed exactly when the user has a movie in it. */
  lemma {:induction false} ListedIffUsed(cs: seq<CategoryCount>, c: string)
    requires PositiveCounts(cs)
    ensures CountOf(cs, c) > 0 <==> exists i :: 0 <= i < |cs| && cs[i].category == c
  {
    if |cs| > 0 && cs[0].category != c {
      ListedIffUsed(cs[1..], c);
      if exists i :: 0 <= i < |cs[1..]| && cs[1..][i].category == c {
        var i :| 0 <= i < |cs[1..]| && cs[1..][i].category == c;
        assert cs[i + 1].category == c;
      }
      if exists i :: 0 <= i < |cs| && cs[i].category == c {
        var i :| 0 <= i < |cs| && cs[i].category == c;
        assert cs[1..][i - 1].category == c;
      }
    }
  }

  // ----- findAll / countAll -----

  /** `findAll($page, $perPage)`: a page of every user's movies, newest first. */
  function FindAll(t: Table, page: int, perPage: int): (r: seq<Movie>)
    ensures forall i :: 0 <= i < |r| ==> r[i] in t
    ensures NewestFirstOrder(r)
    ensures perPage >= 0 ==> |r| <= perPage
  {
    var all := NewestFirst(t);
    NewestFirstKeepsRows(t);
    var r := Sql.LimitOffset(all, perPage, (page - 1) * perPage);
    WindowOfNewestFirst(all, perPage, (page - 1) * perPage);
    r
  }

  /** Page `page` of every user's movies is the newest-first list from row
      `(page - 1) * perPage` for `perPage` rows or to its end, and empty past the end. */
  lemma FindAllIsWindow(t: Table, page: int, perPage: int)
    requires page >= 1 && perPage >= 0
    ensures 0 <= (page - 1) * perPage
    ensures var all := NewestFirst(t);
      var start := (page - 1) * perPage;
      var end := if start + perPage < |all| then start + perPage else |all|;
      FindAll(t, page, perPage) == if start < |all| then all[start..end] else []
  {
    Sql.LimitOffsetPage(NewestFirst(t), page, perPage);
  }

  /** `countAll()` */
  function CountAll(t: Table): (n: nat)
    ensures n == |NewestFirst(t)|
  {
    |t|
  }
}

=== FILE: movie_parser.dfy ===
/** The link-metadata extractor (`support/MovieParser.php`): given the page a
    bookmark URL points to, it picks a title, a description and a poster image
    from the page's meta tags, `<title>` and `<img>` elements.

    Fetching the page and building its DOM are I/O and library work: the model
    takes their outcome as input. A page is the sequence of the elements the
    extractor queries, in document order, with the attributes it reads; a failed
    fetch is `None`. The page URL comes pre-split as `parse_url` splits it. */
module MovieParser {
  import opened Common
  import opened Php

  /** One element of the parsed page, reduced to what the extractor reads. */
  datatype Element =
    | Meta(property: Option<string>, name: Option<string>, content: Option<string>)
    | TitleTag(text: string)
    | Img(src: Option<string>)
    | OtherElement

  /** The page's elements in document order. */
  type Document = seq<Element>

  /** The components of a URL that `parse_url` returns and the extractor uses. */
  datatype UrlParts = UrlParts(scheme: Option<string>, host: Option<string>, path: Option<string>)

  /** The `['success', 'title', 'description', 'poster_url']` array `parse` returns. */
  datatype ParseResult = ParseResult(success: bool, title: string, description: string, posterUrl: string)

  /** The result a failed fetch yields. */
  const Failed := ParseResult(false, "", "", "")

  // ----- What the XPath queries select -----

  /** `//meta[@property="<property>"]/@content`: a meta tag with that property and a content. */
  predicate IsMetaWithProperty(e: Element, property: string) {
    e.Meta? && e.property == Some(property) && e.content.Some?
  }

  predicate IsOgTitle(e: Element) { IsMetaWithProperty(e, "og:title") }

  predicate IsOgDescription(e: Element) { IsMetaWithProperty(e, "og:description") }

  predicate IsOgImage(e: Element) { IsMetaWithProperty(e, "og:image") }

  /** `//meta[@name="description"]/@content` */
  predicate IsMetaDescription(e: Element) {
    e.Meta? && e.name == Some("description") && e.content.Some?
  }

  /** `getElementsByTagName('title')` */
  predicate IsTitleTag(e: Element) {
    e.TitleTag?
  }

  /** An `<img>` that has a `src` attribute (`//img[@src]`) whose value is truthy and does not
      contain `icon` or `logo` (case-sensitive): the image the poster fallback takes. */
  predicate IsPosterCandidate(e: Element) {
    && e.Img? && e.src.Some?
    && Truthy(e.src.value)
    && !Contains(e.src.value, "icon")
    && !Contains(e.src.value, "logo")
  }

  // ----- resolveUrl -----

  predicate IsAbsolute(url: string) {
    StartsWith(url, "http://") || StartsWith(url, "https://")
  }

  /** `rtrim(dirname($path), '/') . '/'`: the directory part a relative reference is appended to. */
  function DirPrefix(path: string): (r: string)
    ensures |r| > 0 && r[|r| - 1] == '/'
  {
    TrimRightBy(DirName(path), IsSlash) + "/"
  }

  /** `resolveUrl($url, $baseUrl)`: turns an image reference found on the page into an
      absolute URL. A missing scheme counts as `http`, a missing host as empty, a missing
      path as `/`; no normalisation is applied. */
  function ResolveUrl(url: string, base: UrlParts): (r: string)
  {
    if IsAbsolute(url) then url
    else
      var scheme := base.scheme.GetOr("http");
      if StartsWith(url, "//") then scheme + ":" + url
      else
        var host := base.host.GetOr("");
        if StartsWith(url, "/") then scheme + "://" + host + url
        else scheme + "://" + host + DirPrefix(base.path.GetOr("/")) + url
  }

  /** Every resolved reference ends with the reference itself; an absolute one is returned
      as it is, any other one is prefixed by the base scheme (`http` when missing) and a colon. */
  lemma ResolveUrlShape(url: string, base: UrlParts)
    ensures var r := ResolveUrl(url, base);
      && |url| <= |r| && r[|r| - |url|..] == url
      && (IsAbsolute(url) ==> r == url)
      && (!IsAbsolute(url) ==> StartsWith(r, base.scheme.GetOr("http") + ":"))
  {
    var r := ResolveUrl(url, base);
    var scheme := base.scheme.GetOr("http");
    if !IsAbsolute(url) {
      assert r[..|scheme + ":"|] == scheme + ":";
    }
  }

  /** On a page served over `http` or `https` (or with no scheme), every resolved reference
      is absolute, so resolving it again, against any page, changes nothing. */
  lemma ResolveUrlIdempotent(url: string, base: UrlParts, other: UrlParts)
    requires base.scheme.None? || base.scheme == Some("http") || base.scheme == Some("https")
    ensures IsAbsolute(ResolveUrl(url, base))
    ensures ResolveUrl(ResolveUrl(url, base), other) == ResolveUrl(url, base)
  {
    var r := ResolveUrl(url, base);
    var scheme := base.scheme.GetOr("http");
    if !IsAbsolute(url) {
      var rest := if StartsWith(url, "//") then url[2..] else r[|scheme| + 3..];
      assert r == scheme + "://" + rest by {
        if StartsWith(url, "//") {
          assert url == "//" + url[2..];
        }
      }
      assert StartsWith(r, scheme + "://");
    }
  }

  /** A reference starting with `/` is never absolute: `http://` and `https://` start with `h`. */
  lemma RootedIsNotAbsolute(url: string)
    requires StartsWith(url, "/")
    ensures !IsAbsolute(url)
  {
    NotStartsWith(url, "http://", 0);
    NotStartsWith(url, "https://", 0);
  }

  /** A protocol-relative reference `//host/...` takes the page's scheme (`http` when the page
      has none) and a colon, and nothing of the page's host or path. */
  lemma ResolveProtocolRelative(url: string, base: UrlParts)
    requires StartsWith(url, "//")
    ensures ResolveUrl(url, base) == base.scheme.GetOr("http") + ":" + url
  {
    StartsWithShorter(url, "//", "/");
    RootedIsNotAbsolute(url);
  }

  /** A root-relative reference `/...` takes the page's scheme (`http` when missing) and host
      (empty when missing), and drops the page's path. */
  lemma ResolveRootRelative(url: string, base: UrlParts)
    requires StartsWith(url, "/") && !StartsWith(url, "//")
    ensures ResolveUrl(url, base) == base.scheme.GetOr("http") + "://" + base.host.GetOr("") + url
  {
    RootedIsNotAbsolute(url);
  }

  /** A root-relative or protocol-relative reference does not depend on the page's path. */
  lemma ResolveUrlIgnoresPathForRooted(url: string, base: UrlParts, path: Option<string>)
    requires StartsWith(url, "/")
    ensures ResolveUrl(url, base) == ResolveUrl(url, base.(path := path))
  {
  }

  /** The directory prefix of `d + "/" + name` is `d + "/"`, for a directory `d` that does not
      end in a slash (the root when `d` is empty) and a slash-free name. */
  lemma DirPrefixOfChild(d: string, name: string)
    requires name != "" && '/' !in name
    requires d == "" || d[|d| - 1] != '/'
    ensures DirPrefix(d + "/" + name) == d + "/"
  {
    DirNameOfChild(d, name);
    if d == "" {
      assert TrimRightBy("/", IsSlash) == "";
    } else {
      assert TrimRightBy(d, IsSlash) == d;
    }
  }

  /** A relative reference on a page at `d + "/" + name` lands in directory `d` of the same
      host. */
  lemma ResolveRelativeInDirectory(url: string, base: UrlParts, d: string, name: string)
    requires !IsAbsolute(url) && !StartsWith(url, "/")
    requires base.path == Some(d + "/" + name)
    requires name != "" && '/' !in name
    requires d == "" || d[|d| - 1] != '/'
    ensures ResolveUrl(url, base) == base.scheme.GetOr("http") + "://" + base.host.GetOr("") + d + "/" + url
  {
    DirPrefixOfChild(d, name);
    ResolveAgainstDirectory(url, base, d);
  }

  /** A relative reference resolves to the page's scheme and host, the directory prefix of its
      path, then the reference. */
  lemma ResolveAgainstDirectory(url: string, base: UrlParts, d: string)
    requires !IsAbsolute(url) && !StartsWith(url, "/")
    requires DirPrefix(base.path.GetOr("/")) == d + "/"
    ensures ResolveUrl(url, base) == base.scheme.GetOr("http") + "://" + base.host.GetOr("") + d + "/" + url
  {
    StartsWithShorter(url, "//", "/");
    var origin := base.scheme.GetOr("http") + "://" + base.host.GetOr("");
    assert origin + (d + "/") + url == origin + d + "/" + url;
  }

  /** `dirname` ignores trailing slashes, so a page whose path ends in a slash resolves a
      relative reference against the PARENT of that directory: on `/movies/`, `poster.jpg`
      becomes `/poster.jpg`, not `/movies/poster.jpg` as a browser would resolve it. */
  lemma DirectoryPageResolvesAgainstParent(path: string)
    requires path != ""
    ensures DirPrefix(path + "/") == DirPrefix(path)
  {
    assert TrimRightBy(path + "/", IsSlash) == TrimRightBy(path, IsSlash) by {
      assert (path + "/")[..|path|] == path;
    }
  }

  /** An absolute reference is kept as it is; a protocol-relative one takes the page's
      scheme. */
  lemma ResolveAbsoluteExamples()
    ensures var base := UrlParts(Some("https"), Some("y.com"), Some("/p"));
      && ResolveUrl("https://x.com/a.png", base) == "https://x.com/a.png"
      && ResolveUrl("//cdn.com/a.png", base) == "https://cdn.com/a.png"
  {
    assert StartsWith("https://x.com/a.png", "https://");
    NotStartsWith("//cdn.com/a.png", "http://", 0);
    NotStartsWith("//cdn.com/a.png", "https://", 0);
    assert StartsWith("//cdn.com/a.png", "//");
  }

  /** A root-relative reference takes the page's scheme and host and drops its path. */
  lemma ResolveRootRelativeExample()
    ensures ResolveUrl("/a.png", UrlParts(Some("https"), Some("y.com"), Some("/dir/p"))) == "https://y.com/a.png"
  {
    NotStartsWith("/a.png", "http://", 0);
    NotStartsWith("/a.png", "https://", 0);
    NotStartsWith("/a.png", "//", 1);
    assert StartsWith("/a.png", "/");
  }

  /** On a page whose path ends in a slash, `d + "/" + name + "/"`, a relative reference skips
      that directory and lands in `d`. */
  lemma ResolveOnDirectoryPage(url: string, base: UrlParts, d: string, name: string)
    requires !IsAbsolute(url) && !StartsWith(url, "/")
    requires base.path == Some(d + "/" + name + "/")
    requires name != "" && '/' !in name
    requires d == "" || d[|d| - 1] != '/'
    ensures ResolveUrl(url, base) == base.scheme.GetOr("http") + "://" + base.host.GetOr("") + d + "/" + url
  {
    var file := d + "/" + name;
    assert DirPrefix(file + "/") == d + "/" by {
      DirectoryPageResolvesAgainstParent(file);
      DirPrefixOfChild(d, name);
    }
    ResolveAgainstDirectory(url, base, d);
  }

  // ----- Title suffix cleanup: preg_replace('/ - .*$/', '', $title), then '/ \| .*$/' -----

  /** What `.*$` can consume after a separator: text with no line break, or text whose only
      line break is its last character (`$` matches in front of a final line break). */
  predicate LineTail(t: string) {
    '\n' !in t || (t[|t| - 1] == '\n' && '\n' !in t[..|t| - 1])
  }

  /** The pattern `<sep>.*$` matches starting at position `i` of `s`. */
  predicate SuffixMatchAt(s: string, sep: string, i: int) {
    OccursAt(s, sep, i) && LineTail(s[i + |sep|..])
  }

  /** `i` is the leftmost position where the pattern matches. */
  ghost predicate FirstSuffixMatch(s: string, sep: string, i: int) {
    SuffixMatchAt(s, sep, i) && forall j :: 0 <= j < i ==> !SuffixMatchAt(s, sep, j)
  }

  /** What survives of a match's tail: a final line break the match stopped in front of. */
  function KeptNewline(tail: string): string {
    if '\n' in tail then "\n" else ""
  }

  /** Scans for the leftmost match from position `i` on and cuts it out. */
  function StripSuffixFrom(s: string, sep: string, i: nat): (r: string)
    requires i <= |s|
    ensures (forall k :: i <= k <= |s| ==> !SuffixMatchAt(s, sep, k)) ==> r == s
    ensures forall k ::
      i <= k <= |s| && SuffixMatchAt(s, sep, k) && (forall j :: i <= j < k ==> !SuffixMatchAt(s, sep, j))
      ==> r == s[..k] + KeptNewline(s[k + |sep|..])
    decreases |s| - i
  {
    if SuffixMatchAt(s, sep, i) then s[..i] + KeptNewline(s[i + |sep|..])
    else if i == |s| then s
    else StripSuffixFrom(s, sep, i + 1)
  }

  /** `preg_replace('/<sep>.*$/', '', $s)`: everything from the leftmost match on is removed,
      except a final line break; with no match `s` is returned unchanged. */
  function StripSuffix(s: string, sep: string): (r: string)
    ensures (forall k :: 0 <= k <= |s| ==> !SuffixMatchAt(s, sep, k)) ==> r == s
    ensures forall k :: FirstSuffixMatch(s, sep, k) ==> r == s[..k] + KeptNewline(s[k + |sep|..])
  {
    StripSuffixFrom(s, sep, 0)
  }

  /** The two cleanup passes applied to a `<title>` text. */
  function StripSiteSuffix(title: string): string {
    StripSuffix(StripSuffix(title, " - "), " | ")
  }

  /** On one line, the pattern removes everything from the first occurrence of the separator. */
  lemma OneLineStripSuffix(s: string, sep: string, k: nat)
    requires '\n' !in s
    requires OccursAt(s, sep, k) && forall j :: 0 <= j < k ==> !OccursAt(s, sep, j)
    ensures StripSuffix(s, sep) == s[..k]
  {
    var tail := s[k + |sep|..];
    assert forall m :: 0 <= m < |tail| ==> tail[m] == s[k + |sep| + m];
    assert FirstSuffixMatch(s, sep, k);
  }

  /** On one line without the separator, the pattern removes nothing. */
  lemma OneLineNoSeparator(s: string, sep: string)
    requires forall j :: 0 <= j <= |s| ==> !OccursAt(s, sep, j)
    ensures StripSuffix(s, sep) == s
  {
  }

  // ----- extractTitle -----

  predicate IsSlugSeparator(c: char) {
    c == '-' || c == '_'
  }

  /** The URL fallback of `extractTitle`: the last segment of the slash-trimmed path, with
      `-` and `_` turned into spaces and the first letter upper-cased; `""` when the path is
      missing or falsy. */
  function SlugTitle(path: Option<string>): (r: string)
    ensures path.None? || !Truthy(path.value) ==> r == ""
  {
    if path.None? || !Truthy(path.value) then ""
    else UcFirst(ReplaceChars(AfterLast(TrimBy(path.value, IsSlash), '/'), IsSlugSeparator, ' '))
  }

  /** The text after the last slash of `t` is `segment` when `t` ends with a slash-free
      `segment` that is either all of `t` or preceded by a slash. */
  /** `t` ends in `segment`, behind a slash unless `segment` is all of it. */
  predicate EndsInSegment(t: string, segment: string) {
    && |segment| <= |t| && t[|t| - |segment|..] == segment
    && (|t| > |segment| ==> t[|t| - |segment| - 1] == '/')
  }

  lemma AfterLastSlashIsSegment(t: string, segment: string)
    requires EndsInSegment(t, segment) && '/' !in segment
    ensures AfterLast(t, '/') == segment
  {
    var last := AfterLast(t, '/');
    assert forall k :: |t| - |segment| <= k < |t| ==> t[k] == segment[k - (|t| - |segment|)];
    assert forall k :: |t| - |segment| <= k < |t| ==> t[k] != '/';
    assert forall k :: |t| - |last| <= k < |t| ==> t[k] == last[k - (|t| - |last|)];
    assert forall k :: |t| - |last| <= k < |t| ==> t[k] != '/';
    assert |last| == |segment|;
  }

  /** Trimming slashes off `prefix + "/" + segment + trailing` keeps `segment` at the end,
      behind a slash unless it is all that is left. */
  lemma TrimSlashesKeepsSegment(prefix: string, segment: string, trailing: string)
    requires segment != "" && '/' !in segment
    requires forall k :: 0 <= k < |trailing| ==> trailing[k] == '/'
    ensures EndsInSegment(TrimBy(prefix + "/" + segment + trailing, IsSlash), segment)
  {
    var p := prefix + "/" + segment + trailing;
    SegmentPathShape(prefix, segment, trailing);
    TrimKeepsMiddle(p, |prefix| + 1, |prefix| + 1 + |segment|, IsSlash);
  }

  /** Where the segment and the slashes around it sit in `prefix + "/" + segment + trailing`. */
  lemma SegmentPathShape(prefix: string, segment: string, trailing: string)
    requires segment != "" && '/' !in segment
    requires forall k :: 0 <= k < |trailing| ==> trailing[k] == '/'
    ensures var p, n, e := prefix + "/" + segment + trailing, |prefix| + 1, |prefix| + 1 + |segment|;
      && p[n..e] == segment && p[n - 1] == '/' && !IsSlash(p[n]) && !IsSlash(p[e - 1])
      && forall k :: e <= k < |p| ==> IsSlash(p[k])
  {
    var p := prefix + "/" + segment + trailing;
    var n, e := |prefix| + 1, |prefix| + 1 + |segment|;
    assert p[n..e] == segment && p[n - 1] == '/';
    assert p[n] == segment[0] && segment[0] in segment;
    assert p[e - 1] == segment[|segment| - 1] && segment[|segment| - 1] in segment;
    forall k | e <= k < |p| ensures IsSlash(p[k]) {
      assert p[k] == trailing[k - e];
    }
  }

  /** The slug is taken from the last path segment, whatever precedes it and however many
      slashes follow it. */
  lemma SlugTitleOfLastSegment(prefix: string, segment: string, trailing: string)
    requires segment != "" && '/' !in segment
    requires forall k :: 0 <= k < |trailing| ==> trailing[k] == '/'
    ensures SlugTitle(Some(prefix + "/" + segment + trailing))
         == UcFirst(ReplaceChars(segment, IsSlugSeparator, ' '))
  {
    LastSegmentOfPath(prefix, segment, trailing);
  }

  /** The segment the slug is built from. */
  lemma LastSegmentOfPath(prefix: string, segment: string, trailing: string)
    requires segment != "" && '/' !in segment
    requires forall k :: 0 <= k < |trailing| ==> trailing[k] == '/'
    ensures AfterLast(TrimBy(prefix + "/" + segment + trailing, IsSlash), '/') == segment
    ensures Truthy(prefix + "/" + segment + trailing)
  {
    var p := prefix + "/" + segment + trailing;
    LongIsTruthy(p);
    TrimSlashesKeepsSegment(prefix, segment, trailing);
    AfterLastSlashIsSegment(TrimBy(p, IsSlash), segment);
  }

  /** `extractTitle($dom, $url)`: the first `og:title` content, trimmed (even when that leaves
      it empty); otherwise the first `<title>` text, trimmed, cut at its site suffix; otherwise
      the slug of the URL path. */
  function ExtractTitle(doc: Document, page: UrlParts): (r: string)
    ensures forall i :: FirstWhere(doc, IsOgTitle, i) ==> r == Trim(doc[i].content.value)
    ensures NoneWhere(doc, IsOgTitle) ==>
      forall i :: FirstWhere(doc, IsTitleTag, i) ==> r == StripSiteSuffix(Trim(doc[i].text))
    ensures NoneWhere(doc, IsOgTitle) && NoneWhere(doc, IsTitleTag) ==> r == SlugTitle(page.path)
  {
    match FindFirst(doc, IsOgTitle)
    case Some(i) => Trim(doc[i].content.value)
    case None =>
      match FindFirst(doc, IsTitleTag)
      case Some(i) => StripSiteSuffix(Trim(doc[i].text))
      case None => SlugTitle(page.path)
  }

  // ----- extractDescription -----

  /** `extractDescription($dom)`: the first `og:description` content, otherwise the first
      `<meta name="description">` content, trimmed; otherwise `""`. */
  function ExtractDescription(doc: Document): (r: string)
    ensures forall i :: FirstWhere(doc, IsOgDescription, i) ==> r == Trim(doc[i].content.value)
    ensures NoneWhere(doc, IsOgDescription) ==>
      forall i :: FirstWhere(doc, IsMetaDescription, i) ==> r == Trim(doc[i].content.value)
    ensures NoneWhere(doc, IsOgDescription) && NoneWhere(doc, IsMetaDescription) ==> r == ""
  {
    match FindFirst(doc, IsOgDescription)
    case Some(i) => Trim(doc[i].content.value)
    case None =>
      match FindFirst(doc, IsMetaDescription)
      case Some(i) => Trim(doc[i].content.value)
      case None => ""
  }

  // ----- extractPosterUrl -----

  /** `extractPosterUrl($dom, $baseUrl)`: the first `og:image` content, trimmed and resolved;
      otherwise the `src` of the first `<img>` that is a poster candidate, resolved (not
      trimmed); otherwise `""`. */
  function ExtractPosterUrl(doc: Document, page: UrlParts): (r: string)
    ensures forall i :: FirstWhere(doc, IsOgImage, i) ==> r == ResolveUrl(Trim(doc[i].content.value), page)
    ensures NoneWhere(doc, IsOgImage) ==>
      forall i :: FirstWhere(doc, IsPosterCandidate, i) ==> r == ResolveUrl(doc[i].src.value, page)
    ensures NoneWhere(doc, IsOgImage) && NoneWhere(doc, IsPosterCandidate) ==> r == ""
  {
    match FindFirst(doc, IsOgImage)
    case Some(i) => ResolveUrl(Trim(doc[i].content.value), page)
    case None =>
      match FindFirst(doc, IsPosterCandidate)
      case Some(i) => ResolveUrl(doc[i].src.value, page)
      case None => ""
  }

  // ----- parse -----

  /** `if ($x) { $result[...] = $x; }` on a result field that starts out as `''`. */
  function IfTruthy(s: string): (r: string)
    ensures Truthy(s) ==> r == s
    ensures !Truthy(s) ==> r == ""
  {
    if Truthy(s) then s else ""
  }

  /** `parse($url)` given the fetch outcome: a failed fetch gives the all-empty failure; a
      fetched page reports success exactly when its title is truthy, and fills description and
      poster whenever they are truthy, whether or not the title was found. */
  function Parse(fetched: Option<Document>, page: UrlParts): (r: ParseResult)
    ensures fetched.None? ==> r == Failed
    ensures r.success <==> Truthy(r.title)
    ensures r.success ==> r.title == ExtractTitle(fetched.value, page)
    ensures !r.success ==> r.title == ""
    ensures fetched.Some? ==> r.success == Truthy(ExtractTitle(fetched.value, page))
    ensures fetched.Some? ==> r.description == IfTruthy(ExtractDescription(fetched.value))
    ensures fetched.Some? ==> r.posterUrl == IfTruthy(ExtractPosterUrl(fetched.value, page))
  {
    match fetched
    case None => Failed
    case Some(doc) =>
      var title := ExtractTitle(doc, page);
      ParseResult(
        Truthy(title),
        IfTruthy(title),
        IfTruthy(ExtractDescription(doc)),
        IfTruthy(ExtractPosterUrl(doc, page)))
  }

  // ----- Worked examples -----

  /** A `<title>` made of a name, `" - "` and a site name yields the name, for a one-line
      name without `-` or `|` and a site name that does not end in a space. */
  lemma TitleSiteSuffixRemoved(name: string, site: string, page: UrlParts)
    requires name != [] && !IsTrimSpace(name[0]) && '-' !in name && '|' !in name
    requires site != [] && !IsTrimSpace(site[|site| - 1])
    requires '\n' !in name && '\n' !in site
    ensures ExtractTitle([TitleTag(name + " - " + site)], page) == name
  {
    var doc := [TitleTag(name + " - " + site)];
    assert FirstWhere(doc, IsTitleTag, 0) && NoneWhere(doc, IsOgTitle);
    CleanedNamedTitle(name, site);
  }

  /** The cleanup passes reduce `name + " - " + site` to `name`. */
  lemma CleanedNamedTitle(name: string, site: string)
    requires name != [] && !IsTrimSpace(name[0]) && '-' !in name && '|' !in name
    requires site != [] && !IsTrimSpace(site[|site| - 1])
    requires '\n' !in name && '\n' !in site
    ensures StripSiteSuffix(Trim(name + " - " + site)) == name
  {
    TrimKeepsFramed(name + " - " + site);
    DashSuffixStripped(name, site);
    NoBarSuffix(name);
  }

  lemma DashSuffixStripped(name: string, site: string)
    requires '-' !in name && '\n' !in name && '\n' !in site
    ensures StripSuffix(name + " - " + site, " - ") == name
  {
    FirstSeparatorAfterName(name, site);
    OneLineStripSuffix(name + " - " + site, " - ", |name|);
    PrefixOfJoin(name, " - ", site);
  }

  lemma NoBarSuffix(name: string)
    requires '|' !in name && '\n' !in name
    ensures StripSuffix(name, " | ") == name
  {
    NoOccurrenceWithoutChar(name, " | ", 1);
    OneLineNoSeparator(name, " | ");
  }

  lemma PrefixOfJoin(a: string, b: string, c: string)
    ensures (a + b + c)[..|a|] == a
  {
    assert forall k :: 0 <= k < |a| ==> (a + b + c)[k] == a[k];
  }

  /** In `name + " - " + site`, with no `-` in `name`, the first `" - "` is the one after the
      name, and the whole text is one line. */
  lemma FirstSeparatorAfterName(name: string, site: string)
    requires '-' !in name && '\n' !in name && '\n' !in site
    ensures var t := name + " - " + site;
      && OccursAt(t, " - ", |name|)
      && (forall j :: 0 <= j < |name| ==> !OccursAt(t, " - ", j))
      && '\n' !in t
  {
    var t := name + " - " + site;
    assert t[|name|..|name| + 3] == " - ";
    forall j | 0 <= j < |name| ensures !OccursAt(t, " - ", j) {
      assert t[j + 1] == if j + 1 < |name| then name[j + 1] else ' ';
      assert j + 1 < |name| ==> name[j + 1] in name;
    }
  }

  /** An `og:title` beats any `<title>` even when its content is blank, and then the parse
      fails, whatever else the page holds. */
  lemma BlankOgTitleFails(blank: string, rest: Document, page: UrlParts)
    requires forall k :: 0 <= k < |blank| ==> IsTrimSpace(blank[k])
    ensures var r := Parse(Some([Meta(Some("og:title"), None, Some(blank))] + rest), page);
      !r.success && r.title == ""
  {
    var doc := [Meta(Some("og:title"), None, Some(blank))] + rest;
    assert FirstWhere(doc, IsOgTitle, 0);
    TrimLeftByAll(blank, IsTrimSpace);
  }

  /** A page whose only title is a `<title>` of `"0"` fails: `"0"` is a falsy string. */
  lemma ZeroTitleFails(rest: Document, page: UrlParts)
    requires NoneWhere(rest, IsOgTitle)
    ensures !Parse(Some([TitleTag("0")] + rest), page).success
  {
    var doc := [TitleTag("0")] + rest;
    assert FirstWhere(doc, IsTitleTag, 0);
    assert NoneWhere(doc, IsOgTitle) by {
      assert forall j :: 1 <= j < |doc| ==> doc[j] == rest[j - 1];
    }
    TrimKeepsFramed("0");
    NoOccurrenceWithoutChar("0", " - ", 1);
    NoOccurrenceWithoutChar("0", " | ", 1);
  }

  /** An image whose `src` mentions `logo` or `icon` is passed over for the poster, and the
      next image with a usable `src` is taken. */
  lemma PosterSkipsLogo(skipped: string, poster: string, rest: Document, page: UrlParts)
    requires Contains(skipped, "logo") || Contains(skipped, "icon")
    requires IsPosterCandidate(Img(Some(poster)))
    requires NoneWhere(rest, IsOgImage)
    ensures ExtractPosterUrl([Img(Some(skipped)), Img(Some(poster))] + rest, page) == ResolveUrl(poster, page)
  {
    var doc := [Img(Some(skipped)), Img(Some(poster))] + rest;
    assert doc[0] == Img(Some(skipped)) && doc[1] == Img(Some(poster));
    assert NoneWhere(doc, IsOgImage) by {
      assert forall j :: 2 <= j < |doc| ==> doc[j] == rest[j - 2];
    }
    assert FirstWhere(doc, IsPosterCandidate, 1);
  }
}

=== FILE: pagination.dfy ===
/** The listing arithmetic both list pages share: the requested page is
    clamped to at least 1, rows are shown twenty at a time, and the page count
    is `ceil($total / 20)`, computed here on integers. */
module Pagination {
  import Sql

  /** The page size `IndexController::index` and `MovieController::index` pass down. */
  const PerPage: nat := 20

  /** `max(1, $page)`: the page actually shown for the requested page number. */
  function ClampPage(requested: int): (page: int)
    ensures page >= 1
    ensures requested >= 1 ==> page == requested
    ensures requested < 1 ==> page == 1
  {
    if requested < 1 then 1 else requested
  }

  /** `ceil($total / 20)`: the least number of pages of twenty that hold `total` rows. */
  function TotalPages(total: nat): (n: nat)
    ensures n * PerPage >= total
    ensures n > 0 ==> (n - 1) * PerPage < total
    ensures total == 0 <==> n == 0
  {
    (total + PerPage - 1) / PerPage
  }

  /** The rows of page `page` (from 1): `LIMIT 20 OFFSET ($page - 1) * 20`. */
  function PageOf<T>(rows: seq<T>, page: int): seq<T> {
    Sql.LimitOffset(rows, PerPage, (page - 1) * PerPage)
  }

  /** With the page clamped to at least 1, a page has rows exactly when its number is at most
      the page count: the count the view gets and the pages the query returns agree. */
  lemma PageNonEmptyIffWithinCount<T>(rows: seq<T>, page: int)
    requires page >= 1
    ensures PageOf(rows, page) != [] <==> page <= TotalPages(|rows|)
  {
    var n := TotalPages(|rows|);
    var start := (page - 1) * PerPage;
    assert page <= n ==> start < |rows| by {
      if page <= n {
        assert start <= (n - 1) * PerPage;
      }
    }
    assert page > n ==> start >= |rows| by {
      if page > n {
        assert start >= n * PerPage;
      }
    }
  }

  /** Page `page` holds the rows from `(page - 1) * 20` up to twenty further, in order. */
  lemma PageContents<T>(rows: seq<T>, page: int)
    requires 1 <= page <= TotalPages(|rows|)
    ensures var start := (page - 1) * PerPage;
      var end := if page * PerPage < |rows| then page * PerPage else |rows|;
      start < end <= |rows| && PageOf(rows, page) == rows[start..end]
  {
    PageNonEmptyIffWithinCount(rows, page);
  }

  /** Pages 1 to `n`, one after the other. */
  function PagesUpTo<T>(rows: seq<T>, n: nat): seq<T> {
    if n == 0 then [] else PagesUpTo(rows, n - 1) + PageOf(rows, n)
  }

  /** Reading pages 1 to `n` in turn shows the first `20 * n` rows (or all of them) in order:
      no row is skipped and none is shown twice. */
  lemma {:induction false} PagesUpToArePrefix<T>(rows: seq<T>, n: nat)
    ensures var end := if n * PerPage < |rows| then n * PerPage else |rows|;
      PagesUpTo(rows, n) == rows[..end]
  {
    if n > 0 {
      PagesUpToArePrefix(rows, n - 1);
      var start := (n - 1) * PerPage;
      var prev := if start < |rows| then start else |rows|;
      var end := if n * PerPage < |rows| then n * PerPage else |rows|;
      assert PageOf(rows, n) == rows[prev..end];
      assert rows[..prev] + rows[prev..end] == rows[..end];
    }
  }

  /** All pages together show every row exactly once, in order. */
  lemma EveryRowOnSomePage<T>(rows: seq<T>)
    ensures PagesUpTo(rows, TotalPages(|rows|)) == rows
  {
    PagesUpToArePrefix(rows, TotalPages(|rows|));
  }
}

=== FILE: php.dfy ===
/** The PHP built-ins the application leans on, stated over `string`.

    A PHP string is a byte string. The model keeps text as a sequence of
    Unicode scalar values and recovers byte counts where the application
    asks for them (`strlen`), assuming the request text is UTF-8. The
    built-ins used on the modelled paths only look for ASCII delimiters, so
    working on characters instead of bytes changes nothing for them. */
module Php {

  /** PHP's truthiness of a string: `""` and `"0"` are the only false strings. */
  predicate Truthy(s: string) {
    s != "" && s != "0"
  }

  /** A string of two or more characters is truthy. */
  lemma LongIsTruthy(s: string)
    requires |s| >= 2
    ensures Truthy(s)
  {
  }

  /** The characters `trim()` removes by default: space, tab, LF, CR, NUL and vertical tab. */
  predicate IsTrimSpace(c: char) {
    c == ' ' || c == '\t' || c == '\n' || c == '\r' || c == '\0' || c as int == 0x0B
  }

  predicate IsSlash(c: char) {
    c == '/'
  }

  /** Drops every leading character that `strip` accepts. */
  function TrimLeftBy(s: string, strip: char -> bool): (r: string)
    ensures |r| <= |s| && r == s[|s| - |r|..]
    ensures forall k :: 0 <= k < |s| - |r| ==> strip(s[k])
    ensures r == [] || !strip(r[0])
  {
    if |s| > 0 && strip(s[0]) then TrimLeftBy(s[1..], strip) else s
  }

  /** Drops every trailing character that `strip` accepts (`rtrim($s, $chars)`). */
  function TrimRightBy(s: string, strip: char -> bool): (r: string)
    ensures |r| <= |s| && r == s[..|r|]
    ensures forall k :: |r| <= k < |s| ==> strip(s[k])
    ensures r == [] || !strip(r[|r| - 1])
  {
    if |s| > 0 && strip(s[|s| - 1]) then TrimRightBy(s[..|s| - 1], strip) else s
  }

  /** `r` is the piece of `s` starting at `a`, and everything around it is stripped. */
  ghost predicate FramedAt(s: string, r: string, a: int, strip: char -> bool) {
    && 0 <= a && a + |r| <= |s| && r == s[a..a + |r|]
    && (forall k :: 0 <= k < a ==> strip(s[k]))
    && (forall k :: a + |r| <= k < |s| ==> strip(s[k]))
  }

  /** When the characters at `n` and `e - 1` are kept and everything from `e` on is stripped,
      trimming leaves `s[n..e]` at the end, behind `s[n - 1]` when anything precedes it. */
  lemma TrimKeepsMiddle(s: string, n: int, e: int, strip: char -> bool)
    requires 0 <= n < e <= |s| && !strip(s[n]) && !strip(s[e - 1])
    requires forall k :: e <= k < |s| ==> strip(s[k])
    ensures var t := TrimBy(s, strip);
      && e - n <= |t| && t[|t| - (e - n)..] == s[n..e]
      && (|t| > e - n ==> 0 < n && t[|t| - (e - n) - 1] == s[n - 1])
  {
    TrimIsSlice(s, n, e, strip);
    LeftTrimStopsBefore(s, n, strip);
    SliceTail(TrimBy(s, strip), s, |s| - |TrimLeftBy(s, strip)|, n, e);
  }

  /** `ltrim` stops at or before the first kept character. */
  lemma LeftTrimStopsBefore(s: string, n: int, strip: char -> bool)
    requires 0 <= n < |s| && !strip(s[n])
    ensures |s| - |TrimLeftBy(s, strip)| <= n
  {
    if |s| - |TrimLeftBy(s, strip)| > n {
      assert false;
    }
  }

  /** Under the conditions of `TrimKeepsMiddle`, trimming ends the piece at `e`. */
  lemma TrimIsSlice(s: string, n: int, e: int, strip: char -> bool)
    requires 0 <= n < e <= |s| && !strip(s[n]) && !strip(s[e - 1])
    requires forall k :: e <= k < |s| ==> strip(s[k])
    ensures TrimBy(s, strip) == s[|s| - |TrimLeftBy(s, strip)|..e]
  {
    var left := TrimLeftBy(s, strip);
    assert TrimBy(s, strip) == TrimRightBy(left, strip);
    LeftTrimStopsBefore(s, n, strip);
    TrimRightOfSuffix(s, left, |s| - |left|, e, strip);
  }

  lemma TrimRightOfSuffix(s: string, left: string, a: int, e: int, strip: char -> bool)
    requires 0 <= a < e <= |s| && left == s[a..] && !strip(s[e - 1])
    requires forall k :: e <= k < |s| ==> strip(s[k])
    ensures TrimRightBy(left, strip) == s[a..e]
  {
    forall k | e - a <= k < |left| ensures strip(left[k]) {
      assert left[k] == s[a + k];
    }
    assert left[e - 1 - a] == s[e - 1];
    TrimRightKeepsUpTo(left, e - a, strip);
  }

  /** When the character before `m` is kept and everything from `m` on is stripped,
      `rtrim` cuts at `m`. */
  lemma TrimRightKeepsUpTo(s: string, m: int, strip: char -> bool)
    requires 0 < m <= |s| && !strip(s[m - 1])
    requires forall k :: m <= k < |s| ==> strip(s[k])
    ensures TrimRightBy(s, strip) == s[..m]
  {
    var r := TrimRightBy(s, strip);
    if |r| < m {
      assert false;
    }
    if |r| > m {
      assert false;
    }
  }

  /** The piece `s[a..e]` ends with `s[n..e]`, behind `s[n - 1]` when it starts before `n`. */
  lemma SliceTail(t: string, s: string, a: int, n: int, e: int)
    requires 0 <= a <= n < e <= |s| && t == s[a..e]
    ensures && e - n <= |t| && t[|t| - (e - n)..] == s[n..e]
            && (|t| > e - n ==> 0 < n && t[|t| - (e - n) - 1] == s[n - 1])
  {
    assert |t| - (e - n) == n - a;
  }

  /** Drops the characters `strip` accepts from both ends (`trim($s, $chars)`). */
  function TrimBy(s: string, strip: char -> bool): (r: string)
    ensures r == [] || (!strip(r[0]) && !strip(r[|r| - 1]))
  {
    TrimRightBy(TrimLeftBy(s, strip), strip)
  }

  /** What trimming leaves is a contiguous piece of `s` framed only by stripped characters. */
  lemma TrimByFrames(s: string, strip: char -> bool)
    ensures exists a :: FramedAt(s, TrimBy(s, strip), a, strip)
  {
    var left := TrimLeftBy(s, strip);
    TrimsFrame(s, left, TrimRightBy(left, strip), strip);
    assert FramedAt(s, TrimBy(s, strip), |s| - |left|, strip);
  }

  /** A left trim followed by a right trim leaves a piece framed by stripped characters. */
  lemma TrimsFrame(s: string, left: string, r: string, strip: char -> bool)
    requires |left| <= |s| && left == s[|s| - |left|..]
    requires forall k :: 0 <= k < |s| - |left| ==> strip(s[k])
    requires |r| <= |left| && r == left[..|r|]
    requires forall k :: |r| <= k < |left| ==> strip(left[k])
    ensures FramedAt(s, r, |s| - |left|, strip)
  {
    var a := |s| - |left|;
    forall k | a + |r| <= k < |s| ensures strip(s[k]) {
      assert s[k] == left[k - a];
    }
    assert r == s[a..a + |r|];
  }

  /** `trim($s)` */
  function Trim(s: string): string {
    TrimBy(s, IsTrimSpace)
  }

  /** Trimming twice trims nothing more. */
  lemma {:induction false} TrimIdempotent(s: string)
    ensures Trim(Trim(s)) == Trim(s)
  {
    var t := Trim(s);
    if t != [] {
      assert !IsTrimSpace(t[0]) && !IsTrimSpace(t[|t| - 1]);
      assert TrimLeftBy(t, IsTrimSpace) == t;
      assert TrimRightBy(t, IsTrimSpace) == t;
    }
  }

  /** A string of trimmed characters only trims to nothing. */
  lemma {:induction false} TrimLeftByAll(s: string, strip: char -> bool)
    requires forall k :: 0 <= k < |s| ==> strip(s[k])
    ensures TrimLeftBy(s, strip) == ""
  {
    if |s| > 0 {
      TrimLeftByAll(s[1..], strip);
    }
  }

  /** A string framed by non-space characters is its own trim. */
  lemma TrimKeepsFramed(s: string)
    requires s == [] || (!IsTrimSpace(s[0]) && !IsTrimSpace(s[|s| - 1]))
    ensures Trim(s) == s
  {
    if s != [] {
      assert TrimLeftBy(s, IsTrimSpace) == s;
      assert TrimRightBy(s, IsTrimSpace) == s;
    }
  }

  /** `str_starts_with($s, $prefix)` */
  predicate StartsWith(s: string, prefix: string) {
    |prefix| <= |s| && s[..|prefix|] == prefix
  }

  /** A string that starts with `p` starts with every prefix of `p`. */
  lemma StartsWithShorter(s: string, p: string, q: string)
    requires |q| <= |p| && p[..|q|] == q
    ensures StartsWith(s, p) ==> StartsWith(s, q)
  {
    if StartsWith(s, p) {
      assert s[..|q|] == s[..|p|][..|q|];
    }
  }

  /** A string that differs from `prefix` at some position of it does not start with it. */
  lemma NotStartsWith(s: string, prefix: string, k: nat)
    requires k < |prefix| && k < |s| && s[k] != prefix[k]
    ensures !StartsWith(s, prefix)
  {
    if |prefix| <= |s| {
      assert s[..|prefix|][k] == s[k];
    }
  }

  /** A needle with a character that does not occur in `s` occurs nowhere in `s`. */
  lemma NoOccurrenceWithoutChar(s: string, needle: string, k: nat)
    requires k < |needle| && needle[k] !in s
    ensures forall i :: !OccursAt(s, needle, i)
    ensures !Contains(s, needle)
  {
    forall i ensures !OccursAt(s, needle, i) {
      if 0 <= i && i + |needle| <= |s| {
        assert s[i..i + |needle|][k] == s[i + k];
        assert s[i + k] in s;
      }
    }
  }

  /** `str_contains($s, $needle)`: a case-sensitive substring test. */
  predicate Contains(s: string, needle: string) {
    exists i :: 0 <= i <= |s| - |needle| && OccursAt(s, needle, i)
  }

  /** `needle` occurs in `s` starting at position `i`. */
  predicate OccursAt(s: string, needle: string, i: int) {
    0 <= i && i + |needle| <= |s| && s[i..i + |needle|] == needle
  }

  /** The number of bytes UTF-8 uses for `c`. */
  function Utf8Width(c: char): (w: nat)
    ensures 1 <= w <= 4
    ensures w == 1 <==> c as int < 0x80
  {
    if c as int < 0x80 then 1
    else if c as int < 0x800 then 2
    else if c as int < 0x1_0000 then 3
    else 4
  }

  /** `strlen($s)`: the byte length of the UTF-8 encoding of `s`, not its character count. */
  function ByteLength(s: string): (n: nat)
    ensures |s| <= n <= 4 * |s|
    ensures n == |s| <==> forall k :: 0 <= k < |s| ==> s[k] as int < 0x80
  {
    if |s| == 0 then 0 else Utf8Width(s[0]) + ByteLength(s[1..])
  }

  /** `ucfirst($s)`: an ASCII lower-case first letter becomes upper-case; nothing else changes. */
  function UcFirst(s: string): (r: string)
    ensures |r| == |s| && (|s| > 0 ==> r[1..] == s[1..])
    ensures |s| > 0 && 'a' <= s[0] <= 'z' ==> 'A' <= r[0] <= 'Z' && r[0] as int + 32 == s[0] as int
    ensures |s| > 0 && !('a' <= s[0] <= 'z') ==> r == s
  {
    if |s| > 0 && 'a' <= s[0] <= 'z' then [(s[0] as int - 32) as char] + s[1..] else s
  }

  /** `str_replace([...], $by, $s)` for single-character needles: each character `target`
      accepts is replaced by `replacement`, everything else stays where it was. */
  function ReplaceChars(s: string, target: char -> bool, replacement: char): (r: string)
    ensures |r| == |s|
    ensures forall k :: 0 <= k < |s| ==> r[k] == if target(s[k]) then replacement else s[k]
  {
    seq(|s|, k requires 0 <= k < |s| => if target(s[k]) then replacement else s[k])
  }

  /** `end(explode($c, $s))`: the text after the last `c`, or all of `s` when there is none. */
  function AfterLast(s: string, c: char): (r: string)
    ensures |r| <= |s| && r == s[|s| - |r|..]
    ensures c !in r
    ensures |r| < |s| ==> s[|s| - |r| - 1] == c
  {
    var upTo := TrimRightBy(s, x => x != c);
    assert forall k :: |upTo| <= k < |s| ==> s[k] != c;
    s[|upTo|..]
  }

  /** The text after a `c` that is followed by no other `c` is what `AfterLast` returns. */
  lemma AfterLastSeparator(s: string, c: char, tail: string)
    requires c !in tail
    ensures AfterLast(s + [c] + tail, c) == tail
  {
    var whole := s + [c] + tail;
    var r := AfterLast(whole, c);
    assert whole[|s|] == c;
    assert forall k :: |whole| - |r| <= k < |whole| ==> whole[k] == r[k - (|whole| - |r|)];
    assert forall k :: |s| < k < |whole| ==> whole[k] == tail[k - |s| - 1];
    assert |r| == |tail|;
    assert whole[|whole| - |tail|..] == tail;
  }

  /** Everything up to (not including) the last `c`, or all of `s` when there is none. */
  function BeforeLast(s: string, c: char): (r: string)
    ensures |r| <= |s| && r == s[..|r|]
    ensures c in s ==> |r| + |AfterLast(s, c)| + 1 == |s|
    ensures c !in s ==> r == s
  {
    var after := AfterLast(s, c);
    AfterLastShorterIffPresent(s, c);
    if |after| < |s| then s[..|s| - |after| - 1] else s
  }

  /** `AfterLast` drops something exactly when `c` occurs. */
  lemma AfterLastShorterIffPresent(s: string, c: char)
    ensures |AfterLast(s, c)| < |s| <==> c in s
  {
    var after := AfterLast(s, c);
    if |after| < |s| {
      assert s[|s| - |after| - 1] == c;
    } else {
      assert after == s;
    }
  }

  /** A string holding `c` is what comes before its last `c`, that `c`, and what follows. */
  lemma SplitAtLast(s: string, c: char)
    requires c in s
    ensures s == BeforeLast(s, c) + [c] + AfterLast(s, c)
  {
    var after := AfterLast(s, c);
    var n := |s| - |after| - 1;
    assert s[n] == c;
    assert s == s[..n] + [s[n]] + s[n + 1..];
  }

  /** `dirname($path)` as PHP computes it on POSIX systems: trailing slashes are ignored, the
      last name is dropped together with the slashes before it; a path of slashes only, or a
      name directly under the root, gives `"/"`, a bare name gives `"."`, and `""` stays `""`. */
  function DirName(path: string): (r: string)
  {
    if path == "" then ""
    else
      var noTrailing := TrimRightBy(path, IsSlash);
      if noTrailing == "" then "/"
      else
        var withSlash := TrimRightBy(noTrailing, x => x != '/');
        if withSlash == "" then "."
        else
          var parent := TrimRightBy(withSlash, IsSlash);
          if parent == "" then "/" else parent
  }

  /** `dirname` of `d + "/" + name` is `d` when `d` is a non-empty path not ending in a slash
      and `name` a non-empty name without slashes; it is `"/"` when `d` is empty. */
  lemma DirNameOfChild(d: string, name: string)
    requires name != "" && '/' !in name
    requires d == "" || d[|d| - 1] != '/'
    ensures DirName(d + "/" + name) == if d == "" then "/" else d
  {
    var p := d + "/" + name;
    assert TrimRightBy(p, IsSlash) == p;
    var withSlash := TrimRightBy(p, x => x != '/');
    assert withSlash == d + "/" by {
      TrimRightByStopsAt(p, x => x != '/', |d| + 1);
    }
    assert TrimRightBy(d + "/", IsSlash) == d by {
      assert (d + "/")[..|d|] == d;
      if d != "" {
        assert TrimRightBy(d, IsSlash) == d;
      }
    }
  }

  /** `TrimRightBy` stops at the last character `strip` rejects. */
  lemma {:induction false} TrimRightByStopsAt(s: string, strip: char -> bool, n: nat)
    requires 0 < n <= |s| && !strip(s[n - 1])
    requires forall k :: n <= k < |s| ==> strip(s[k])
    ensures TrimRightBy(s, strip) == s[..n]
    decreases |s|
  {
    if n < |s| {
      assert s[..|s| - 1][..n] == s[..n];
      TrimRightByStopsAt(s[..|s| - 1], strip, n);
    }
  }

  /** `basename($path)`: the last name of the path, trailing slashes ignored. */
  function BaseName(path: string): (r: string)
    ensures '/' !in r
  {
    AfterLast(TrimRightBy(path, IsSlash), '/')
  }

  /** The base name of a path that ends in a slash-free name is that name. */
  lemma BaseNameOfChild(dir: string, name: string)
    requires name != "" && '/' !in name
    ensures BaseName(dir + ['/'] + name) == name
  {
    var p := dir + ['/'] + name;
    assert p[|p| - 1] == name[|name| - 1];
    assert TrimRightBy(p, IsSlash) == p;
    AfterLastSeparator(dir, '/', name);
  }

  /** `pathinfo($name, PATHINFO_EXTENSION)`: the text after the last dot of the base name, or
      `""` when the base name has no dot. */
  function Extension(name: string): (r: string)
    ensures '.' !in r && '/' !in r
  {
    var base := BaseName(name);
    if '.' in base then AfterLast(base, '.') else ""
  }

  /** `pathinfo($name, PATHINFO_FILENAME)`: the base name without its last dot and what follows. */
  function FileName(name: string): (r: string)
    ensures '/' !in r
  {
    BeforeLast(BaseName(name), '.')
  }

  /** A base name with a dot is its file name, a dot, and its extension; without one, it is
      its own file name and the extension is empty. */
  lemma FileNameAndExtension(name: string)
    ensures '.' in BaseName(name) ==> BaseName(name) == FileName(name) + "." + Extension(name)
    ensures '.' !in BaseName(name) ==> FileName(name) == BaseName(name) && Extension(name) == ""
  {
    var base := BaseName(name);
    if '.' in base {
      SplitAtLast(base, '.');
    }
  }
}

=== FILE: sql.dfy ===
/** The slice of SQL (SQLite through PDO) the repositories rely on: the
    `UPDATE ... SET` statement both models assemble from a column whitelist, the
    `LIMIT ? OFFSET ?` window, and the BINARY collation `ORDER BY` uses on text. */
module Sql {
  import opened Common

  /** A value bound to a `?` placeholder. */
  datatype Value = Text(text: string) | Integer(number: int) | Null

  /** A prepared statement and the values `execute` binds to it, in order. */
  datatype Statement = Statement(sql: string, params: seq<Value>)

  /** The number of `?` placeholders in `sql`. */
  function Placeholders(sql: string): (n: nat)
    ensures n <= |sql|
    ensures n == 0 <==> '?' !in sql
  {
    if |sql| == 0 then 0
    else (if sql[0] == '?' then 1 else 0) + Placeholders(sql[1..])
  }

  /** A statement is well-formed for `execute` when it has one bound value per placeholder. */
  predicate WellBound(s: Statement) {
    Placeholders(s.sql) == |s.params|
  }

  lemma {:induction false} PlaceholdersAppend(a: string, b: string)
    ensures Placeholders(a + b) == Placeholders(a) + Placeholders(b)
  {
    if |a| > 0 {
      assert (a + b)[1..] == a[1..] + b;
      PlaceholdersAppend(a[1..], b);
    } else {
      assert a + b == b;
    }
  }

  /** `implode($glue, $pieces)` */
  function Implode(glue: string, pieces: seq<string>): string {
    if |pieces| == 0 then ""
    else if |pieces| == 1 then pieces[0]
    else pieces[0] + glue + Implode(glue, pieces[1..])
  }

  /** The total number of placeholders in a list of SQL fragments. */
  function SumPlaceholders(pieces: seq<string>): nat {
    if |pieces| == 0 then 0 else Placeholders(pieces[0]) + SumPlaceholders(pieces[1..])
  }

  lemma SumPlaceholdersSingle(piece: string)
    ensures SumPlaceholders([piece]) == Placeholders(piece)
  {
    assert [piece][1..] == [];
  }

  lemma OnePlaceholderAtEnd(text: string)
    requires '?' !in text
    ensures Placeholders(text + "?") == 1
  {
    PlaceholdersAppend(text, "?");
  }

  lemma {:induction false} SumPlaceholdersAppend(a: seq<string>, b: seq<string>)
    ensures SumPlaceholders(a + b) == SumPlaceholders(a) + SumPlaceholders(b)
  {
    if |a| > 0 {
      assert (a + b)[1..] == a[1..] + b;
      SumPlaceholdersAppend(a[1..], b);
    } else {
      assert a + b == b;
    }
  }

  /** Joining with a glue that holds no placeholder neither adds nor loses any. */
  lemma {:induction false} ImplodePlaceholders(glue: string, pieces: seq<string>)
    requires Placeholders(glue) == 0
    ensures Placeholders(Implode(glue, pieces)) == SumPlaceholders(pieces)
  {
    if |pieces| > 1 {
      ImplodePlaceholders(glue, pieces[1..]);
      PlaceholdersAppend(pieces[0], glue);
      PlaceholdersAppend(pieces[0] + glue, Implode(glue, pieces[1..]));
    }
  }

  // ----- The whitelisted SET clause of Movie::update and User::update -----

  /** The `$key => $value` pairs of the input array, in order, whose key is on the whitelist. */
  function Whitelisted(data: seq<(string, string)>, allowed: set<string>): (w: seq<(string, string)>)
    ensures |w| <= |data|
    ensures forall i :: 0 <= i < |w| ==> w[i].0 in allowed && w[i] in data
    ensures forall i :: 0 <= i < |data| && data[i].0 in allowed ==> data[i] in w
  {
    Filter(data, KeyIn(allowed))
  }

  /** The value the last pair with key `key` carries, if any: both what a PHP array keeps
      when a key is written twice and what SQLite stores when a column is assigned twice. */
  function LastValue(pairs: seq<(string, string)>, key: string): (r: Option<string>)
    ensures r.None? <==> forall i :: 0 <= i < |pairs| ==> pairs[i].0 != key
  {
    if |pairs| == 0 then None
    else if pairs[|pairs| - 1].0 == key then Some(pairs[|pairs| - 1].1)
    else LastValue(pairs[..|pairs| - 1], key)
  }

  /** The value of the last pair with a given key is found at that pair. */
  lemma {:induction false} LastValueAt(pairs: seq<(string, string)>, key: string, i: int)
    requires 0 <= i < |pairs| && pairs[i].0 == key
    requires forall j :: i < j < |pairs| ==> pairs[j].0 != key
    ensures LastValue(pairs, key) == Some(pairs[i].1)
    decreases |pairs|
  {
    if i < |pairs| - 1 {
      LastValueAt(pairs[..|pairs| - 1], key, i);
    }
  }

  function KeyIn(allowed: set<string>): ((string, string)) -> bool {
    (p: (string, string)) => p.0 in allowed
  }

  /** Input whose every key is on the whitelist passes whole. */
  lemma WhitelistedAll(data: seq<(string, string)>, allowed: set<string>)
    requires forall i :: 0 <= i < |data| ==> data[i].0 in allowed
    ensures Whitelisted(data, allowed) == data
  {
    FilterAll(data, KeyIn(allowed));
  }

  /** The `"$key = ?"` fragments, one per pair. */
  function Assignments(pairs: seq<(string, string)>): (fields: seq<string>)
    ensures |fields| == |pairs|
  {
    seq(|pairs|, i requires 0 <= i < |pairs| => pairs[i].0 + " = ?")
  }

  /** The values bound to those fragments, in the same order. */
  function Bindings(pairs: seq<(string, string)>): (values: seq<Value>)
    ensures |values| == |pairs|
    ensures forall i :: 0 <= i < |pairs| ==> values[i] == Text(pairs[i].1)
  {
    seq(|pairs|, i requires 0 <= i < |pairs| => Text(pairs[i].1))
  }

  /** Column names free of `?`, as the whitelisted names are. */
  ghost predicate PlainNames(names: set<string>) {
    forall k :: k in names ==> Placeholders(k) == 0
  }

  /** Every assignment built from plainly named columns holds exactly one placeholder. */
  lemma {:induction false} AssignmentsPlaceholders(pairs: seq<(string, string)>)
    requires forall i :: 0 <= i < |pairs| ==> Placeholders(pairs[i].0) == 0
    ensures SumPlaceholders(Assignments(pairs)) == |pairs|
  {
    if |pairs| > 0 {
      assert Assignments(pairs)[1..] == Assignments(pairs[1..]);
      PlaceholdersAppend(pairs[0].0, " = ?");
      AssignmentsPlaceholders(pairs[1..]);
    }
  }

  /** The fixed pieces of the UPDATE statements. They are functions rather than literals so
      that the verifier counts their placeholders from the character test alone. */
  function UpdateKeyword(): string { "UPDATE " }
  function SetKeyword(): string { " SET " }
  function FieldGlue(): string { ", " }
  function WhereId(): string { " WHERE id = ?" }

  /** The assignment that closes every SET list: the row's modification time. */
  function TouchUpdatedAt(): string { "updated_at = datetime('now')" }

  /** `'UPDATE <table> SET ' . implode(', ', $fields) . ' WHERE id = ?'` */
  function UpdateSql(table: string, fields: seq<string>): (sql: string)
    ensures StartsWithText(sql, UpdateKeyword() + table + SetKeyword())
  {
    UpdateKeyword() + table + SetKeyword() + Implode(FieldGlue(), fields) + WhereId()
  }

  /** The statement text spelled out: `UPDATE`, the table, `SET`, the fragments joined by
      `, `, then `WHERE id = ?`. */
  lemma UpdateSqlLayout(table: string, fields: seq<string>)
    ensures UpdateSql(table, fields) == "UPDATE " + table + " SET " + Implode(", ", fields) + " WHERE id = ?"
  {
  }

  /** An UPDATE whose SET list ends with the modification time: the given assignments, joined
      by `, `, then `updated_at`, then the id condition. */
  lemma UpdateSqlOfSetList(table: string, assigns: seq<string>)
    ensures UpdateSql(table, assigns + [TouchUpdatedAt()])
         == "UPDATE " + table + " SET "
            + (if assigns == [] then "" else Implode(", ", assigns) + ", ")
            + "updated_at = datetime('now')" + " WHERE id = ?"
  {
    UpdateSqlLayout(table, assigns + [TouchUpdatedAt()]);
    ImplodeSnoc(", ", assigns, TouchUpdatedAt());
    var head := "UPDATE " + table + " SET ";
    var tail := " WHERE id = ?";
    if assigns != [] {
      var joined := Implode(", ", assigns);
      assert head + (joined + ", " + TouchUpdatedAt()) + tail == head + (joined + ", ") + TouchUpdatedAt() + tail;
    }
  }

  /** Joining a list with one more fragment at the end puts the glue and that fragment last. */
  lemma {:induction false} ImplodeSnoc(glue: string, pieces: seq<string>, last: string)
    ensures Implode(glue, pieces + [last]) == if pieces == [] then last else Implode(glue, pieces) + glue + last
  {
    if |pieces| == 1 {
      assert pieces + [last] == [pieces[0], last];
    } else if |pieces| > 1 {
      assert (pieces + [last])[1..] == pieces[1..] + [last];
      ImplodeSnoc(glue, pieces[1..], last);
    }
  }

  predicate StartsWithText(s: string, prefix: string) {
    |prefix| <= |s| && s[..|prefix|] == prefix
  }

  lemma KeywordsPlain()
    ensures Placeholders(UpdateKeyword()) == 0 && Placeholders(SetKeyword()) == 0
    ensures Placeholders(FieldGlue()) == 0
  {
    assert '?' !in UpdateKeyword() && '?' !in SetKeyword() && '?' !in FieldGlue();
  }

  lemma TouchUpdatedAtPlain()
    ensures Placeholders(TouchUpdatedAt()) == 0
  {
    NoPlaceholderIn(TouchUpdatedAt());
  }

  lemma NoPlaceholderIn(text: string)
    requires '?' !in text
    ensures Placeholders(text) == 0
  {
  }

  lemma WhereIdPlaceholder()
    ensures Placeholders(WhereId()) == 1
  {
    assert WhereId() == " WHERE id = " + "?";
    OnePlaceholderAtEnd(" WHERE id = ");
  }

  /** An UPDATE statement holds the placeholders of its SET list and one more for the id. */
  lemma UpdateSqlPlaceholders(table: string, fields: seq<string>)
    requires '?' !in table
    ensures Placeholders(UpdateSql(table, fields)) == SumPlaceholders(fields) + 1
  {
    KeywordsPlain();
    WhereIdPlaceholder();
    ImplodePlaceholders(FieldGlue(), fields);
    PlaceholdersOfFive(UpdateKeyword(), table, SetKeyword(), Implode(FieldGlue(), fields), WhereId());
  }

  lemma PlaceholdersOfFive(a: string, b: string, c: string, d: string, e: string)
    ensures Placeholders(a + b + c + d + e)
         == Placeholders(a) + Placeholders(b) + Placeholders(c) + Placeholders(d) + Placeholders(e)
  {
    PlaceholdersAppend(a, b);
    PlaceholdersAppend(a + b, c);
    PlaceholdersAppend(a + b + c, d);
    PlaceholdersAppend(a + b + c + d, e);
  }

  /** A SET list of plain assignments closed by the timestamp holds one placeholder per
      assignment. */
  lemma SetListPlaceholders(pairs: seq<(string, string)>, extra: seq<string>)
    requires forall i :: 0 <= i < |pairs| ==> '?' !in pairs[i].0
    ensures SumPlaceholders(Assignments(pairs) + extra + [TouchUpdatedAt()]) == |pairs| + SumPlaceholders(extra)
  {
    TouchUpdatedAtPlain();
    ClosedSetList(pairs, extra, TouchUpdatedAt());
  }

  lemma ClosedSetList(pairs: seq<(string, string)>, extra: seq<string>, last: string)
    requires forall i :: 0 <= i < |pairs| ==> '?' !in pairs[i].0
    requires Placeholders(last) == 0
    ensures SumPlaceholders(Assignments(pairs) + extra + [last]) == |pairs| + SumPlaceholders(extra)
  {
    AssignmentsPlaceholders(pairs);
    SumPlaceholdersAppend(Assignments(pairs), extra);
    SumPlaceholdersAppend(Assignments(pairs) + extra, [last]);
    SumPlaceholdersSingle(last);
  }

  // ----- LIMIT / OFFSET -----

  /** `LIMIT limit OFFSET offset` as SQLite applies it: a negative offset counts as zero and a
      negative limit means no limit. */
  function LimitOffset<T>(rows: seq<T>, limit: int, offset: int): (r: seq<T>)
    ensures var start := if offset < 0 then 0 else offset;
      && (start >= |rows| ==> r == [])
      && (start < |rows| ==> start + |r| <= |rows| && r == rows[start..start + |r|])
      && (limit >= 0 ==> |r| == if start >= |rows| then 0 else if |rows| - start < limit then |rows| - start else limit)
      && (limit < 0 && start < |rows| ==> r == rows[start..])
  {
    var start := if offset < 0 then 0 else if offset > |rows| then |rows| else offset;
    var end := if limit < 0 || start + limit > |rows| then |rows| else start + limit;
    rows[start..end]
  }

  /** A window that starts inside the rows holds `limit` rows, or as many as remain. */
  lemma LimitOffsetWindow<T>(rows: seq<T>, limit: int, offset: int)
    requires 0 <= offset < |rows| && limit >= 0
    ensures var end := if offset + limit < |rows| then offset + limit else |rows|;
      LimitOffset(rows, limit, offset) == rows[offset..end]
  {
  }

  /** Page `page` of `perPage` rows, `LIMIT perPage OFFSET (page - 1) * perPage`: the rows from
      `(page - 1) * perPage` for `perPage` rows or to the end, and nothing past the end. */
  lemma LimitOffsetPage<T>(rows: seq<T>, page: int, perPage: int)
    requires page >= 1 && perPage >= 0
    ensures var start := (page - 1) * perPage;
      var end := if start + perPage < |rows| then start + perPage else |rows|;
      && 0 <= start
      && LimitOffset(rows, perPage, start) == if start < |rows| then rows[start..end] else []
  {
    var start := (page - 1) * perPage;
    assert 0 <= start by {
      assert page - 1 >= 0;
    }
    if start < |rows| {
      LimitOffsetWindow(rows, perPage, start);
    }
  }

  // ----- BINARY collation -----

  /** Text order under SQLite's BINARY collation: byte-wise comparison of the UTF-8 encodings,
      which orders strings as their code points do, a proper prefix first. */
  predicate Less(a: string, b: string) {
    if |a| == 0 then |b| > 0
    else if |b| == 0 then false
    else if a[0] != b[0] then a[0] < b[0]
    else Less(a[1..], b[1..])
  }

  lemma {:induction false} LessIrreflexive(a: string)
    ensures !Less(a, a)
  {
    if |a| > 0 {
      LessIrreflexive(a[1..]);
    }
  }

  lemma {:induction false} LessTransitive(a: string, b: string, c: string)
    requires Less(a, b) && Less(b, c)
    ensures Less(a, c)
  {
    if |a| > 0 && |b| > 0 && |c| > 0 && a[0] == b[0] && b[0] == c[0] {
      LessTransitive(a[1..], b[1..], c[1..]);
    }
  }

  lemma {:induction false} LessTotal(a: string, b: string)
    ensures a == b || Less(a, b) || Less(b, a)
  {
    if |a| > 0 && |b| > 0 && a[0] == b[0] {
      LessTotal(a[1..], b[1..]);
      if a[1..] == b[1..] {
        assert a == [a[0]] + a[1..] && b == [b[0]] + b[1..];
      }
    }
  }

  lemma {:induction false} LessAsymmetric(a: string, b: string)
    requires Less(a, b)
    ensures !Less(b, a)
  {
    if |a| > 0 && |b| > 0 && a[0] == b[0] {
      LessAsymmetric(a[1..], b[1..]);
    }
  }
}

=== FILE: user_model.dfy ===
/** The `users` repository (`app/model/User.php`) as an in-memory table.

    The password column only ever holds what the hashing function returns. The
    `Digest` type keeps that apart from plain text. `password_hash` and
    `password_verify` are parameters, and so are the id the engine assigns and
    the insertion time. */
module UserModel {
  import opened Common
  import opened Php
  import Sql

  /** What `password_hash` returns: never the password itself. */
  datatype Digest = Digest(value: string)

  /** A row of the `users` table. */
  datatype User = User(
    id: int,
    username: string,
    password: Digest,
    email: Option<string>,
    createdAt: int,
    updatedAt: int)

  type Table = seq<User>

  /** The first row `p` accepts, or null. */
  function FirstMatch(t: Table, p: User -> bool): (r: Option<User>)
    ensures r.None? <==> forall i :: 0 <= i < |t| ==> !p(t[i])
    ensures r.Some? ==> p(r.value) && r.value in t
    ensures r.Some? ==> exists i :: 0 <= i < |t| && t[i] == r.value && forall j :: 0 <= j < i ==> !p(t[j])
  {
    match FindFirst(t, p)
    case Some(i) => Some(t[i])
    case None => None
  }

  /** `find($id)` */
  function Find(t: Table, id: int): (r: Option<User>)
    ensures r.None? <==> forall i :: 0 <= i < |t| ==> t[i].id != id
    ensures r.Some? ==> r.value.id == id && r.value in t
  {
    FirstMatch(t, (u: User) => u.id == id)
  }

  /** `findByUsername($username)`: an exact, case-sensitive match. */
  function FindByUsername(t: Table, username: string): (r: Option<User>)
    ensures r.None? <==> forall i :: 0 <= i < |t| ==> t[i].username != username
    ensures r.Some? ==> r.value.username == username && r.value in t
  {
    FirstMatch(t, (u: User) => u.username == username)
  }

  /** `findByEmail($email)`: a row whose email is null never matches, `email = ?` being
      unknown there. */
  function FindByEmail(t: Table, email: string): (r: Option<User>)
    ensures r.None? <==> forall i :: 0 <= i < |t| ==> t[i].email != Some(email)
    ensures r.Some? ==> r.value.email == Some(email) && r.value in t
  {
    FirstMatch(t, (u: User) => u.email == Some(email))
  }

  /** The row `create` inserts: the password goes in hashed, the email as given (null when the
      key is absent or null, `""` staying `""`). */
  function NewRow(username: string, password: string, email: Option<string>,
                  hash: string -> Digest, id: int, now: int): (u: User)
    ensures u.id == id && u.username == username && u.email == email
    ensures u.password == hash(password)
    ensures u.createdAt == now && u.updatedAt == now
  {
    User(id, username, hash(password), email, now, now)
  }

  /** `create($data)`: appends the new row. */
  function Create(t: Table, username: string, password: string, email: Option<string>,
                  hash: string -> Digest, id: int, now: int): (r: Table)
    ensures |r| == |t| + 1 && r[..|t|] == t
    ensures r[|t|] == NewRow(username, password, email, hash, id, now)
  {
    t + [NewRow(username, password, email, hash, id, now)]
  }

  /** A row appended under a name no earlier row has is the one found by that name, and
      lookups of every other name see no difference. */
  lemma CreateThenFindByUsername(t: Table, username: string, password: string, email: Option<string>,
                                 hash: string -> Digest, id: int, now: int)
    requires FindByUsername(t, username).None?
    ensures FindByUsername(Create(t, username, password, email, hash, id, now), username)
            == Some(NewRow(username, password, email, hash, id, now))
    ensures forall other :: other != username ==>
              FindByUsername(Create(t, username, password, email, hash, id, now), other) == FindByUsername(t, other)
  {
    var row := NewRow(username, password, email, hash, id, now);
    FirstMatchAppend(t, row, (u: User) => u.username == username);
    forall other | other != username
      ensures FindByUsername(t + [row], other) == FindByUsername(t, other)
    {
      FirstMatchAppend(t, row, (u: User) => u.username == other);
    }
  }

  lemma {:induction false} FirstMatchAppend(t: Table, row: User, p: User -> bool)
    ensures FirstMatch(t + [row], p) == if FirstMatch(t, p).Some? then FirstMatch(t, p)
                                        else if p(row) then Some(row) else None
  {
    if |t| > 0 {
      assert (t + [row])[1..] == t[1..] + [row];
      FirstMatchAppend(t[1..], row, p);
    } else {
      assert t + [row] == [row];
    }
  }

  /** No two rows share a username (the registration flow keeps it so). */
  ghost predicate UniqueUsernames(t: Table) {
    forall i, j :: 0 <= i < j < |t| ==> t[i].username != t[j].username
  }

  /** Appending a row under a name that is not yet taken keeps the names unique. */
  lemma CreateKeepsUsernamesUnique(t: Table, username: string, password: string, email: Option<string>,
                                   hash: string -> Digest, id: int, now: int)
    requires UniqueUsernames(t) && FindByUsername(t, username).None?
    ensures UniqueUsernames(Create(t, username, password, email, hash, id, now))
  {
  }

  // ----- update -----

  /** The columns taken from the input as they are. */
  const Columns: set<string> := {"username", "email"}

  function PasswordAssignment(): string { "password = ?" }

  lemma PasswordAssignmentPlaceholder()
    ensures Sql.Placeholders(PasswordAssignment()) == 1
  {
    assert PasswordAssignment() == "password = " + "?";
    Sql.OnePlaceholderAtEnd("password = ");
  }

  /** The value given for `password`, if any: `isset($data['password'])`. */
  function NewPassword(data: seq<(string, string)>): Option<string> {
    Sql.LastValue(data, "password")
  }

  /** The statement `update($id, $data)` prepares and the values it binds: the username and
      email assignments in input order, then the password (hashed) when one is given, then
      `updated_at`, then the id. The plain password is never bound. */
  function UpdateStatement(id: int, data: seq<(string, string)>, hash: string -> Digest): (s: Sql.Statement)
    ensures Sql.WellBound(s)
    ensures var w := Sql.Whitelisted(data, Columns);
      var extra := if NewPassword(data).Some? then 1 else 0;
      && |s.params| == |w| + extra + 1
      && s.params[|s.params| - 1] == Sql.Integer(id)
      && (forall i :: 0 <= i < |w| ==> s.params[i] == Sql.Text(w[i].1))
      && (NewPassword(data).Some? ==> s.params[|w|] == Sql.Text(hash(NewPassword(data).value).value))
  {
    var w := Sql.Whitelisted(data, Columns);
    var pw := NewPassword(data);
    var extraField := if pw.Some? then [PasswordAssignment()] else [];
    var extraValue := if pw.Some? then [Sql.Text(hash(pw.value).value)] else [];
    var fields := Sql.Assignments(w) + extraField + [Sql.TouchUpdatedAt()];
    UpdatePlaceholders(w, extraField, fields);
    Sql.Statement(Sql.UpdateSql("users", fields), Sql.Bindings(w) + extraValue + [Sql.Integer(id)])
  }

  /** The statement text: one `column = ?` per username or email pair, in input order, then
      `password = ?` when a password is given, then the modification time, then the id
      condition. The plain password is never written into the text. */
  lemma UpdateStatementText(id: int, data: seq<(string, string)>, hash: string -> Digest)
    ensures var w := Sql.Whitelisted(data, Columns);
      var setList := Sql.Assignments(w) + (if NewPassword(data).Some? then ["password = ?"] else []);
      (forall i :: 0 <= i < |w| ==> Sql.Assignments(w)[i] == w[i].0 + " = ?" && w[i].0 in Columns)
      && UpdateStatement(id, data, hash).sql
         == "UPDATE " + "users" + " SET "
            + (if setList == [] then "" else Sql.Implode(", ", setList) + ", ")
            + "updated_at = datetime('now')" + " WHERE id = ?"
  {
    var w := Sql.Whitelisted(data, Columns);
    var setList := Sql.Assignments(w) + (if NewPassword(data).Some? then [PasswordAssignment()] else []);
    assert UpdateStatement(id, data, hash).sql == Sql.UpdateSql("users", setList + [Sql.TouchUpdatedAt()]);
    Sql.UpdateSqlOfSetList("users", setList);
  }

  lemma UpdatePlaceholders(w: seq<(string, string)>, extraField: seq<string>, fields: seq<string>)
    requires forall i :: 0 <= i < |w| ==> w[i].0 in Columns
    requires extraField == [] || extraField == [PasswordAssignment()]
    requires fields == Sql.Assignments(w) + extraField + [Sql.TouchUpdatedAt()]
    ensures Sql.Placeholders(Sql.UpdateSql("users", fields)) == |w| + |extraField| + 1
  {
    ColumnsArePlain();
    ExtraFieldPlaceholders(extraField);
    Sql.SetListPlaceholders(w, extraField);
    Sql.UpdateSqlPlaceholders("users", fields);
  }

  lemma ColumnsArePlain()
    ensures forall k :: k in Columns ==> '?' !in k
  {
  }

  lemma ExtraFieldPlaceholders(extraField: seq<string>)
    requires extraField == [] || extraField == [PasswordAssignment()]
    ensures Sql.SumPlaceholders(extraField) == |extraField|
  {
    if extraField != [] {
      PasswordAssignmentPlaceholder();
      Sql.SumPlaceholdersSingle(PasswordAssignment());
    }
  }

  /** One assignment; any other column changes nothing. */
  function Assign(u: User, column: string, value: string): User {
    if column == "username" then u.(username := value)
    else if column == "email" then u.(email := Some(value))
    else u
  }

  function AssignAll(u: User, pairs: seq<(string, string)>): User
    decreases |pairs|
  {
    if |pairs| == 0 then u
    else Assign(AssignAll(u, pairs[..|pairs| - 1]), pairs[|pairs| - 1].0, pairs[|pairs| - 1].1)
  }

  /** What the UPDATE does to the table. */
  function UpdateRows(t: Table, id: int, data: seq<(string, string)>, hash: string -> Digest, now: int): (r: Table)
    ensures |r| == |t|
  {
    var w := Sql.Whitelisted(data, Columns);
    var pw := NewPassword(data);
    seq(|t|, i requires 0 <= i < |t| =>
      if t[i].id != id then t[i]
      else
        var u := AssignAll(t[i], w);
        u.(password := if pw.Some? then hash(pw.value) else u.password, updatedAt := now))
  }

  /** `update($id, $data)`: the statement it runs and the table afterwards. */
  function Update(t: Table, id: int, data: seq<(string, string)>, hash: string -> Digest, now: int)
    : (r: (Sql.Statement, Table))
    ensures Sql.WellBound(r.0)
    ensures |r.1| == |t|
  {
    (UpdateStatement(id, data, hash), UpdateRows(t, id, data, hash, now))
  }

  lemma {:induction false} AssignAllWritesLastValues(u: User, pairs: seq<(string, string)>)
    ensures var r := AssignAll(u, pairs);
      && r.id == u.id && r.password == u.password && r.createdAt == u.createdAt && r.updatedAt == u.updatedAt
      && r.username == Sql.LastValue(pairs, "username").GetOr(u.username)
      && r.email == (if Sql.LastValue(pairs, "email").Some? then Sql.LastValue(pairs, "email") else u.email)
    decreases |pairs|
  {
    if |pairs| > 0 {
      AssignAllWritesLastValues(u, pairs[..|pairs| - 1]);
    }
  }

  /** `update` rewrites only the row with that id: its username and email to the values
      given, its password to the digest of the new password when one is given, and its
      modification time; id and creation time stay. */
  lemma UpdateChangesOnlyGivenFields(t: Table, id: int, data: seq<(string, string)>,
                                     hash: string -> Digest, now: int, i: int)
    requires 0 <= i < |t|
    ensures var r := Update(t, id, data, hash, now).1;
      var w := Sql.Whitelisted(data, Columns);
      && (t[i].id != id ==> r[i] == t[i])
      && (t[i].id == id ==>
            && r[i].id == id && r[i].createdAt == t[i].createdAt && r[i].updatedAt == now
            && r[i].username == Sql.LastValue(w, "username").GetOr(t[i].username)
            && r[i].email == (if Sql.LastValue(w, "email").Some? then Sql.LastValue(w, "email") else t[i].email)
            && r[i].password == (if NewPassword(data).Some? then hash(NewPassword(data).value) else t[i].password))
  {
    AssignAllWritesLastValues(t[i], Sql.Whitelisted(data, Columns));
  }

  // ----- delete / verifyPassword -----

  /** `delete($id)`: removes the rows with that id and keeps the rest in order. */
  function Delete(t: Table, id: int): (r: Table)
    ensures forall i :: 0 <= i < |r| ==> r[i].id != id && r[i] in t
    ensures forall i :: 0 <= i < |t| && t[i].id != id ==> t[i] in r
    ensures Find(r, id).None?
    ensures multiset(r) <= multiset(t)
    ensures forall u :: multiset(r)[u] == if u.id != id then multiset(t)[u] else 0
    ensures |r| == |t| - CountWhere(t, (u: User) => u.id == id)
  {
    var keep := (u: User) => u.id != id;
    var r := Filter(t, keep);
    forall u ensures multiset(r)[u] == if u.id != id then multiset(t)[u] else 0 {
      FilterMultiplicity(t, keep, u);
    }
    KeptAndDropped(t, keep, (u: User) => u.id == id);
    r
  }

  /** `verifyPassword($user, $password)`: `password_verify` against the stored digest. */
  function VerifyPassword(user: User, password: string, verify: (string, Digest) -> bool): (ok: bool)
    ensures ok == verify(password, user.password)
  {
    verify(password, user.password)
  }

  /** With a verifier that accepts what the hasher made, a freshly created user's password
      checks out. */
  lemma CreatedPasswordVerifies(username: string, password: string, email: Option<string>,
                                hash: string -> Digest, verify: (string, Digest) -> bool, id: int, now: int)
    requires forall p :: verify(p, hash(p))
    ensures VerifyPassword(NewRow(username, password, email, hash, id, now), password, verify)
  {
  }
}
